=== FILE: README.md ===
# Real-time viewer dashboard: a Dafny model of the analytics core

This project models the deterministic analytics of a viewer-engagement
pipeline in Dafny. A producer publishes `view_start`, `heartbeat` and `view_end`
events. A Kafka consumer buffers them and writes them in batches to a Postgres
`events` table. The Streamlit dashboard `app_pg.py` and a small FastAPI service
(`src/api.py`) read that table. A second Streamlit dashboard, `app.py`, reads
instead the SQLite file that the event simulator writes. Each front end turns its
events into live KPIs, per-second and concurrency charts and a top-countries
table. Two model
helpers reconstruct viewing sessions for a survival fit and prepare a
starts-per-minute series for a forecast.

Every operation is a pure function over a finite sequence of `Event`s and an
explicit `now`:

- Timestamps are integer nanosecond ticks. `None` is pandas' NaT.
- A missing dwell (pandas NaN) is `None` as well.
- Flooring and ceiling to the second or minute are integer division.
- The consumer loop is a state machine. Each iteration is driven by a `Tick`, which says:
  - what the broker poll returned;
  - what the clock read;
  - whether the batch insert commits.

Modules:

- `Wrappers`: `Option`.
- `Events`: event kinds, timestamps, floor/ceil, per-viewer min/max reductions.
- `Buckets`: group-by-sum and count-per-floored-key with their reference definitions.
- `Survival`: `dwell_label` and the cleaning guard of `fit_km`.
- `Window`: the windowed aggregates shared by the three front ends.
- `Ranking`: top countries by distinct viewers.
- `Timeseries`: `starts_per_minute` and the forecast pre-processing.
- `Ingest`: the consumer's buffer, flush and main loop.
- `Dashboard`: the live page of `app_pg.py` and `app.py`.
- `SqliteApp`: `load_df` of `app.py`.
- `Api`: the `/kpis`, `/concurrency` and `/countries` bodies.

## Model

| member | source | states |
|---|---|---|
| Events.KindOf | src/models/survival.py:25-36 | only the exact strings "view_start" and "view_end" are starts and ends; any other type behaves like a heartbeat |
| Events.FloorTo | app_pg.py:60 | flooring to a frequency gives the bucket start: a multiple of `w` with `r <= t < r + w` |
| Events.CeilTo | app_pg.py:69 | ceiling to a frequency gives a multiple of `w` with `r - w < t <= r` |
| Events.MinOf | src/models/survival.py:27 | `min()` is NaN exactly on an empty group, else an element that bounds all others from below |
| Events.MaxOf | src/models/survival.py:34 | `max()` is NaN exactly on an empty group, else an element that bounds all others from above |
| Events.FirstStartIsEarliest | src/models/survival.py:25-29 | a viewer's start is defined iff it has a timed `view_start`, and is then the earliest one |
| Events.LastEndIsLatest | src/models/survival.py:31-36 | a viewer's end is defined iff it has a timed `view_end`, and is then the latest one |
| Events.EndOrNowIsLatestOrNow | src/models/survival.py:44 | the filled end is `now` when the viewer has no timed `view_end`, and otherwise the timestamp of its latest one |
| Events.ReductionsDependOnlyOnEventSet | src/models/survival.py:25-36 | the start and end reductions depend only on which events occur, not on order or duplicates |
| Buckets.GroupSum | src/models/timeseries.py:58 | grouping by key gives strictly ascending keys |
| Buckets.GroupSumKeys | src/models/timeseries.py:58 | the grouped keys are exactly the distinct input keys |
| Buckets.GroupSumTotals | src/models/timeseries.py:58 | each bucket holds the total weight its key carried, and the overall total is preserved |
| Buckets.GroupSumOfAscending | src/models/timeseries.py:57-58 | grouping a list whose keys are already distinct and ascending returns it unchanged |
| Buckets.CountBy | src/models/timeseries.py:18-25 | floor-and-count gives ascending distinct floored keys, each count ≥ 1 and equal to the number of stamps flooring there, summing to the number of stamps |
| Buckets.AscendingKeysCount | src/models/timeseries.py:58-60 | an ascending grouped list has one row per distinct key |
| Survival.SessionOf | src/models/survival.py:38-59 | a viewer's row exists iff it has a start and end ≥ start; dwell is (end − start) in seconds, ≥ 0; churned iff end ≠ now |
| Survival.DwellLabel | src/models/survival.py:6-61 | the frame has a row for exactly the viewers with a defined session, at most one per viewer |
| Survival.EmptyInputEmptyLabel | src/models/survival.py:18-19 | empty input gives an empty frame |
| Survival.StartIsEarliestViewStart | src/models/survival.py:25-41 | a row's start is the viewer's earliest timed `view_start` |
| Survival.NoStartNoRow | src/models/survival.py:40-41 | a viewer without a timed `view_start` never appears |
| Survival.EndIsLatestViewEndOrNow | src/models/survival.py:31-44 | a row's end is the latest `view_end`, or `now` when there is none |
| Survival.DwellIsNonNegativeDifference | src/models/survival.py:51-56 | every row has `dwell_sec = end − start ≥ 0` |
| Survival.NegativeDwellDropped | src/models/survival.py:56 | a viewer whose start is after its end is removed, not clamped |
| Survival.ChurnFlag | src/models/survival.py:59 | churned iff end ≠ now; churned implies an observed `view_end`; a `view_end` exactly at `now` is censored |
| Survival.LabelDependsOnlyOnEventSet | src/models/survival.py:25-38 | two inputs with the same events give the same frame |
| Survival.LabelPermutationInvariant | src/models/survival.py:25-38 | permuting the input events leaves the frame unchanged |
| Survival.HeartbeatsIgnored | src/models/survival.py:25-38 | adding a heartbeat never changes the frame |
| Survival.CleanRows | src/models/survival.py:72-75 | cleaning keeps every row with defined dwell and churn and non-negative dwell, as often as it occurs, and no other row |
| Survival.FitKm | src/models/survival.py:63-78 | the fit is declined iff the input is empty, fewer than 3 clean rows remain or their dwell sum is ≤ 0; otherwise the clean rows go to the estimator |
| Survival.SessionGuard | src/models/survival.py:72-78 | rows built from reconstructed sessions all survive cleaning, so only the count and the dwell sum matter |
| Survival.ObservedEnd | src/models/survival.py:44-59 | start 0 s, heartbeat 5 s, end 12 s at now = 20 s gives dwell 12 s, churned |
| Survival.EndAtNowIsCensored | src/models/survival.py:59 | the same events at now = 12 s give a censored row |
| Survival.StillWatching | src/models/survival.py:44-59 | a lone start at 0 s queried at 30 s gives dwell 30 s, censored |
| Window.Since | app_pg.py:38 | the window keeps exactly the events with a timestamp ≥ the bound; NaT is never kept |
| Window.ActiveViewers | app_pg.py:37-38 | active viewers are at most the frame's distinct viewers, and zero iff no event lies in the last 60 s |
| Window.ActiveDependsOnlyOnWindow | app.py:29-30 | the active count is the number of distinct viewers in the trailing 60-second subset |
| Window.EventsPerSecond | app_pg.py:40-41 | events/sec times 10 is the number of events in the last 10 s; it is ≥ 0 and ≤ frame size / 10 |
| Window.RateIgnoresOldEvents | app.py:32-33 | an event before the 10-second window never changes the rate |
| Window.InlineDwell | app_pg.py:45-49 | a viewer's inline dwell is NaN iff it has no start, and otherwise is clamped to ≥ 0 |
| Window.InlineDwellVersusLabel | app_pg.py:45-49 | the inline dwell equals the reconstructed session's dwell where one exists, and is 0 where the reconstruction drops a negative interval |
| Window.MeanDefined | app_pg.py:50 | `mean()` skips NaN and is NaN iff no value is defined |
| Window.MeanWithin | app_pg.py:49-50 | the mean lies within any bounds that hold for every defined value |
| Window.MinDefined | app_pg.py:49-50 | the least defined value: NaN iff none is defined, otherwise one of the values and below all others |
| Window.MaxDefined | app_pg.py:49-50 | the greatest defined value: NaN iff none is defined, otherwise one of the values and above all others |
| Window.MeanBetweenExtremes | app_pg.py:50 | the mean is defined iff some value is, and then lies between the least and the greatest defined value |
| Window.AvgDwell | app_pg.py:44-50 | average dwell over the last 30 min is 0.0 with no aligned rows, NaN iff aligned rows exist but none has a start, and otherwise ≥ 0 |
| Window.AvgDwellBetween | app_pg.py:44-50 | with aligned rows, a defined average lies between the shortest and the longest clamped dwell of the window's viewers |
| Window.PerSecondBuckets | app_pg.py:58-61 | per-second buckets have ascending second-floored keys, each counting exactly the events of the last 5 min that floor to its second, so each is ≥ 1 and they sum to the events in the last 5 min |
| Window.Concurrent | app_pg.py:72-75 | a concurrency sample never exceeds the window's distinct viewers |
| Window.ConcurrentAntitone | app_pg.py:72-75 | a later sample time never counts more viewers, because the filter has only a lower bound |
| Window.ConcurrentAtNowIsActive | app_pg.py:37-38 | the sample taken at `now` equals the active-viewers KPI |
| Window.SweepVersusRollingWindow | app.py:63-64 | the sweep counts at least the viewers of the true rolling window [t − 60 s, t], and exactly those when no event lies after t |
| Window.SweepCountsLaterViewers | app.py:63-64 | a viewer seen only two minutes after a sample time is still counted by that sample |
| Window.ConcurrencySeries | app_pg.py:66-75 | one sample per second from floor(min ts) to ceil(now) inclusive, ending at ceil(now), each the sweep count at its second |
| Window.SeriesNonIncreasing | app.py:59-67 | the concurrency series never increases along the timeline |
| Ranking.Ranked | app_pg.py:81-82 | the country ranking lists every country once, with its distinct-viewer count, in non-increasing order |
| Ranking.TopCountries | app_pg.py:80-85 | at most 10 distinct countries, counts non-increasing and equal to each country's distinct viewers |
| Ranking.TopCountriesKeepLargest | app.py:72 | a country left out of the top table has no more viewers than any country in it |
| Ranking.TopCountriesComplete | app_pg.py:80-85 | fewer than 10 rows means every country is listed; the table is empty iff the window is |
| Timeseries.StartsPerMinute | src/models/timeseries.py:4-32 | empty input gives no buckets; keys are minute floors, whole minutes, ascending and distinct; counts ≥ 1 and sum to the timed `view_start` events |
| Timeseries.OnlyTimedStartsCount | src/models/timeseries.py:13-15 | heartbeats, ends and starts with an unparsable timestamp never change the series |
| Timeseries.PrepareForecast | src/models/timeseries.py:43-62 | empty input or fewer than 10 distinct valid `ds` gives the empty answer; otherwise strictly increasing `ds`, every valid `ds` kept, `y` totals per `ds` and overall preserved |
| Timeseries.StartsPerMinuteForecast | src/models/timeseries.py:57-62 | starts per minute reach the forecast unchanged once they span 10 minutes |
| Ingest.ParseRow | src/kafka_consumer.py:63-73 | a message is buffered iff it decoded and carries ts, viewer_id, video_id and event_type, which are copied; `country` is copied when present and "US" otherwise |
| Ingest.ParseEncode | src/kafka_consumer.py:64-71 | a well-formed message with all five fields is buffered as exactly that row |
| Ingest.ParseWithoutCountry | src/kafka_consumer.py:70 | a producer's row whose `country` key is removed is buffered unchanged except for country "US" |
| Ingest.Flush | src/kafka_consumer.py:37-50 | an empty buffer or a failed insert leaves the state unchanged; a commit moves the buffer to the table, adds its length to `inserted` and resets `last_flush` |
| Ingest.TimeUp | src/kafka_consumer.py:56 | the flush timer is due once `FLUSH_SEC` has elapsed since the last successful flush |
| Ingest.TimeUpAfterFlush | src/kafka_consumer.py:48-56 | after a committed flush at time c the timer is due again exactly from c + `FLUSH_SEC` |
| Ingest.Step | src/kafka_consumer.py:53-76 | one iteration loses no row; it flushes exactly when an empty poll finds the interval elapsed, or a message finds the buffer at `BATCH_SIZE` or the interval elapsed, and then a commit moves the whole buffer to the table and resets `last_flush`; otherwise only the buffer changes; a failed write, or a flush that finds nothing to write, changes only the buffer and keeps `last_flush`, so the next iteration retries; a broker error changes nothing |
| Ingest.Run | src/kafka_consumer.py:52-76 | with all-or-nothing writes, over any run the table followed by buffer equals the starting table and buffer followed by every accepted row, and the table only grows |
| Ingest.InsertedPlusBuffered | src/kafka_consumer.py:45-65 | from a fresh start, `inserted + len(rows)` equals the number of accepted messages, and `inserted` counts this consumer's rows in the table |
| Ingest.BufferBelowBatch | src/kafka_consumer.py:75-76 | when every write commits, the buffer stays below `BATCH_SIZE` after each iteration |
| Ingest.FailedWritesKeepBuffer | src/kafka_consumer.py:49-50 | with failing writes the table is untouched and the buffer holds every accepted row, ready to retry |
| Ingest.IdleWithEmptyBuffer | src/kafka_consumer.py:55-58 | an idle poll with an empty buffer changes nothing, not even `last_flush` |
| Ingest.FirstMessageAfterQuietSpell | src/kafka_consumer.py:40-76 | after a quiet spell the first valid message is written immediately, alone |
| Ingest.BadMessageStillFlushes | src/kafka_consumer.py:72-76 | a malformed message is dropped but an overdue buffer is still flushed |
| Ingest.BurstWritesWholeBatches | src/kafka_consumer.py:65-76 | with the defaults, n messages read at one instant write (n / 100)·100 rows and keep n mod 100 buffered |
| Ingest.BurstOf150 | src/kafka_consumer.py:75-76 | 150 messages in a burst: 100 written, 50 buffered |
| Ingest.Shutdown | src/kafka_consumer.py:80-81 | a committed final flush empties the buffer into the table; a failed one changes nothing |
| Ingest.RunThenShutdown | src/kafka_consumer.py:78-81 | after a committed shutdown the table holds the starting table plus every accepted row, in order |
| Dashboard.ConcurrencyChart | app_pg.py:66-75 | the chart is empty for an empty 15-minute window, and otherwise is the per-second series from floor(min ts) to ceil(now), non-increasing and bounded by the window's distinct viewers |
| Dashboard.LiveMetrics | app_pg.py:25-87 | no page for an empty frame; otherwise the KPIs are bounded, dwell ≥ 0, the country table is ≤ 10 sorted distinct rows and empty iff the 15-minute window is, and per-second counts sum to the 5-minute events |
| Dashboard.RateWithinChart | app_pg.py:40-61 | events/sec times 10 never exceeds the events the per-second chart shows |
| Dashboard.ChartEndsAtMostActive | app_pg.py:37-75 | the concurrency chart's last point is at most the "Concurrent" KPI |
| Dashboard.PageDependsOnlyOnWindows | app_pg.py:37-85 | two frames that agree on the five windows give the same page |
| Dashboard.UntimedEventIgnored | app.py:29-72 | an event with a NaT timestamp changes no panel |
| SqliteApp.LoadDf | app.py:8-17 | a missing database file gives an empty frame; otherwise one event per stored row, with its timestamp parsed or NaT |
| SqliteApp.Page | app.py:21-24 | the page stops iff the file is missing or the table is empty |
| SqliteApp.UnparsableRowIgnored | app.py:16-33 | a stored row whose timestamp does not parse changes nothing on the page |
| Api.FrameDwells | src/api.py:18-22 | one dwell per aligned viewer of the whole frame: the clamped `end-or-now − start`, NaN iff the viewer has no start, otherwise ≥ 0 |
| Api.MeanDwellMinutes | src/api.py:18-23 | mean dwell over the whole fetched frame is undefined iff no aligned viewer has a start, and otherwise ≥ 0 and between the shortest and the longest dwell, in minutes |
| Api.KpisAsWritten | src/api.py:10-24 | as written: the active count is the 60-second active viewers and eps the 10-second rate (so active ≤ distinct viewers and eps ≥ 0), the average is the mean dwell in minutes over the frame, and it is NaN iff no aligned viewer has a start |
| Api.HeartbeatOnlyFrameIsNaN | src/api.py:18-23 | a frame holding only a heartbeat yields a NaN average as written |
| Api.Kpis | src/api.py:10-24 | corrected: the average is always a number ≥ 0, equal to the as-written value where that is a number and 0 otherwise |
| Api.CorrectedKpisOnHeartbeatOnlyFrame | src/api.py:23 | the corrected endpoint answers 0 on the heartbeat-only frame |
| Api.KpisDwellMatchesDashboard | src/api.py:18-23 | over the same 30-minute frame, the endpoint's average in minutes times 60 is the dashboard's average dwell whenever some viewer has a start or end; with none, the dashboard shows 0 and the endpoint NaN |
| Api.Concurrency | src/api.py:27-36 | `[]` for an empty frame; otherwise the per-second series from floor(min ts) to ceil(now), each the sweep count, non-increasing and bounded by the frame's distinct viewers |
| Api.ConcurrencyMatchesDashboard | src/api.py:31-35 | over the same 15-minute frame the endpoint returns the dashboard's chart |
| Api.Countries | src/api.py:39-43 | `[]` iff the frame is empty; otherwise ≤ 10 distinct countries, non-increasing, with true counts |
| Api.CountriesMatchDashboard | src/api.py:41-43 | over the same 15-minute frame the endpoint returns the dashboard's country table |

## Code over description

The model follows the code wherever the code and its own description differ.

- `churned`: the `dwell_label` docstring (src/models/survival.py:12) says 1 when a `view_end` was seen. The code (line 59) tests `end != now`, so a `view_end` exactly at `now` is censored. `Survival.ChurnFlag` and `Survival.EndAtNowIsCensored` state the code's behaviour.
- "Rolling 60 s" concurrency: the charts are titled as a rolling window, but the filter has no upper bound (app_pg.py:73, app.py:64, src/api.py:34). The model follows the filter. `Window.SweepVersusRollingWindow` relates it to the true rolling window, and `Window.SweepCountsLaterViewers` shows where the two differ.
- Inline dwell clamps a negative interval to 0 (app_pg.py:49). `dwell_label` drops such a viewer (src/models/survival.py:56). Both behaviours are modelled, and `Window.InlineDwellVersusLabel` relates them.

## Left out

- Kaplan–Meier fitting and the survival curve (src/models/survival.py:80-87): the estimator lives in an external library. `Survival.FitKm` stops at the rows it would receive.
- Prophet fitting and prediction (src/models/timeseries.py:41, 64-73): external library on floating point. The lazy import that precedes the empty-input guard is not modelled either.
- Timezone handling and the tz-naive conversion (src/models/timeseries.py:27-31, 46-54): timestamps are plain ticks.
- The SQL queries (`ts > now() - interval …`), `read_sql`, SQLite/Postgres connections, Streamlit rendering, caching, `st.stop`, Plotly and FastAPI routing: each front end is a function of the frame it fetched.
- The survival and forecast tabs of app_pg.py (lines 89-133): rendering around `Survival.DwellLabel`, `Survival.FitKm`, `Timeseries.StartsPerMinute` and `Timeseries.PrepareForecast`.
- Row order of result frames: `Survival.DwellLabel` is a map keyed by viewer, and the order of the per-second and per-minute rows is ascending by key as in pandas.
- Ranking.TopCountries: ties between countries may come out in any order. pandas' `sort_values` fixes no order among ties either, so the contract states only non-increasing counts.
- Api.KpisAsWritten: the rounding of `events_per_sec` and `avg_dwell_min` to two decimals and the `int(...)` casts are not modelled.
- Api.Kpis: same rounding omission as the as-written member.
- Api.KpisAsWritten: an empty fetch is not modelled. `read_sql` then yields a tz-naive `ts` column, and comparing it with the tz-aware `now` raises at src/api.py:14 before any average is taken.
- Window.MeanWithin: dwell seconds, their mean, events/sec and the minutes of `Api.MeanDwellMinutes` are exact reals, while the source computes in float64. Rounding can push a float64 mean outside the bounds this lemma, `Window.MeanBetweenExtremes` and `Window.AvgDwellBetween` state: three dwells of 0.1 s have the float64 mean 0.10000000000000002.
- Ingest.ParseRow: JSON values are modelled as strings, and a message that fails UTF-8 or JSON decoding is `payload = None`. The model has no column types. A decoded message whose `ts` is not a timestamp, or whose `viewer_id` is null, is still buffered (src/kafka_consumer.py:65-71). From then on every insert at line 44 fails, the buffer is never cleared, and ingestion stalls. In the model this is `writeOk == false` on every later tick, the case `Ingest.FailedWritesKeepBuffer` describes.
- Ingest.Flush: the write outcome is all-or-nothing. In the source a batch can commit and then raise, when the commit acknowledgement is lost or the `print` at src/kafka_consumer.py:46 fails (after `inserted` was already increased at line 45). It then stays buffered and is inserted again by the next flush, so the source delivers at least once. `Ingest.Run`'s "no row lost or duplicated" holds only in this model.
- Ingest.Step: one clock reading per iteration. The source reads the clock again inside `flush_rows` to set `last_flush`.
- Ingest.Config: `FLUSH_SEC` is a float in seconds, modelled as an integer tick count.
- The Kafka poll, error printing, `c.close()` and `KeyboardInterrupt` handling: only their effect on the buffer is modelled.
- src/kafka_producer.py, event_sim.py, src/db.py and the Airflow DAG: random simulators, schema setup and SQL text are not part of this model.
- SqliteApp.LoadDf: the timestamp parser is a parameter. pandas' `to_datetime` is not part of this model.

## Findings

| source | as written | input that shows it | evidently intended | confidence | as-written member | corrected member |
|---|---|---|---|---|---|---|
| src/api.py:23 | `(mean() or 0)/60`: NaN is truthy, so the fallback never replaces a NaN mean | a fetched frame holding only a heartbeat event: no aligned viewer, `mean()` is NaN, and `avg_dwell_min` is NaN, which strict JSON encoding rejects | an average of 0 when no dwell is defined | medium, not executed | Api.KpisAsWritten (Api.HeartbeatOnlyFrameIsNaN) | Api.Kpis (Api.CorrectedKpisOnHeartbeatOnlyFrame) |

=== FILE: api.dfy ===
/**
 * The three endpoints of `src/api.py` as functions over the frame the SQL
 * query fetched (the last 30 minutes for `/kpis`, the last 15 for the
 * others) and the current time.
 */
module Api {
  import opened Wrappers
  import opened Events
  import opened Window
  import opened Ranking
  import Dashboard

  /** The `/kpis` body; `avgDwellMin` is `None` where the endpoint yields NaN. */
  datatype KpiReport = KpiReport(activeViewers: nat, eventsPerSec: real, avgDwellMin: Option<real>)

  /** Per-viewer dwell over the whole fetched frame: no further window is applied. */
  function FrameDwells(frame: seq<Event>, now: int): (r: seq<Option<real>>)
    ensures |r| == |AlignedViewers(frame)|
    ensures forall i :: 0 <= i < |r| ==> (r[i].None? <==> FirstStart(frame, AlignedViewers(frame)[i]).None?)
    ensures forall i :: 0 <= i < |r| && r[i].Some? ==> r[i].value >= 0.0
    ensures forall i :: 0 <= i < |r| ==> r[i] == InlineDwell(frame, AlignedViewers(frame)[i], now)
  {
    Dwells(frame, AlignedViewers(frame), now)
  }

  /**
   * Mean dwell in minutes over the viewers that have a start; `None` when
   * none has one, and otherwise between the shortest and the longest dwell.
   */
  function MeanDwellMinutes(frame: seq<Event>, now: int): (r: Option<real>)
    ensures var aligned := AlignedViewers(frame);
            r.None? <==> forall i :: 0 <= i < |aligned| ==> FirstStart(frame, aligned[i]).None?
    ensures r.Some? ==> r.value >= 0.0
    ensures var ds := FrameDwells(frame, now);
            r.Some? ==>
              MinDefined(ds).Some? && MaxDefined(ds).Some? &&
              MinDefined(ds).value / 60.0 <= r.value <= MaxDefined(ds).value / 60.0
  {
    var ds := FrameDwells(frame, now);
    MeanBetweenExtremes(ds);
    match MeanDefined(ds)
    case None => None
    case Some(m) => Some(m / 60.0)
  }

  /**
   * `/kpis` as written. `x or 0` only replaces a falsy mean, and NaN is
   * truthy, so a mean over no defined dwell is returned as NaN.
   */
  function KpisAsWritten(frame: seq<Event>, now: int): (r: KpiReport)
    ensures r.activeViewers <= |Viewers(frame)| && r.eventsPerSec >= 0.0
    ensures r.activeViewers == ActiveViewers(frame, now) && r.eventsPerSec == EventsPerSecond(frame, now)
    ensures r.avgDwellMin == MeanDwellMinutes(frame, now)
    ensures var aligned := AlignedViewers(frame);
            r.avgDwellMin.None? <==> forall i :: 0 <= i < |aligned| ==> FirstStart(frame, aligned[i]).None?
  {
    KpiReport(ActiveViewers(frame, now), EventsPerSecond(frame, now), MeanDwellMinutes(frame, now))
  }

  /** A frame holding only a heartbeat has no aligned viewer, so the as-written average is NaN. */
  lemma HeartbeatOnlyFrameIsNaN(v: string, t: int, now: int)
    ensures KpisAsWritten([Event(Some(t), v, "x", Heartbeat, "US")], now).avgDwellMin.None?
  {
    var frame := [Event(Some(t), v, "x", Heartbeat, "US")];
    assert EndpointViewers(frame) == [];
    assert AlignedViewers(frame) == [];
  }

  /**
   * `/kpis` with the evidently intended fallback: the average is 0 whenever
   * no dwell is defined, so it is always a number and never negative, and it
   * agrees with the as-written value whenever that is a number.
   */
  function Kpis(frame: seq<Event>, now: int): (r: KpiReport)
    ensures r.avgDwellMin.Some? && r.avgDwellMin.value >= 0.0
    ensures r.activeViewers == KpisAsWritten(frame, now).activeViewers
    ensures r.eventsPerSec == KpisAsWritten(frame, now).eventsPerSec
    ensures KpisAsWritten(frame, now).avgDwellMin.Some? ==> r.avgDwellMin == KpisAsWritten(frame, now).avgDwellMin
    ensures KpisAsWritten(frame, now).avgDwellMin.None? ==> r.avgDwellMin == Some(0.0)
  {
    var k := KpisAsWritten(frame, now);
    k.(avgDwellMin := Some(k.avgDwellMin.GetOr(0.0)))
  }

  /** The corrected endpoint answers 0 on the heartbeat-only frame where the as-written one answers NaN. */
  lemma CorrectedKpisOnHeartbeatOnlyFrame(v: string, t: int, now: int)
    ensures Kpis([Event(Some(t), v, "x", Heartbeat, "US")], now).avgDwellMin == Some(0.0)
  {
    HeartbeatOnlyFrameIsNaN(v, t, now);
  }

  /**
   * Over the same 30-minute frame, `/kpis` reports the dashboard's average
   * dwell in minutes whenever some viewer has a start or an end; with none,
   * the dashboard shows 0 while the as-written endpoint yields NaN.
   */
  lemma KpisDwellMatchesDashboard(es: seq<Event>, now: int)
    ensures var win := Since(es, now - DwellWindow);
            var m := KpisAsWritten(win, now).avgDwellMin;
            AlignedViewers(win) != [] ==>
              (m.Some? <==> AvgDwell(es, now).Some?) &&
              (m.Some? ==> m.value * 60.0 == AvgDwell(es, now).value)
    ensures var win := Since(es, now - DwellWindow);
            AlignedViewers(win) == [] ==>
              KpisAsWritten(win, now).avgDwellMin.None? && AvgDwell(es, now) == Some(0.0)
  {
  }

  /**
   * `/concurrency`: `[]` for an empty frame, otherwise one entry per second
   * whose counts never increase along the list and never exceed the frame's
   * distinct viewers.
   */
  function Concurrency(frame: seq<Event>, now: int): (r: seq<Sample>)
    ensures |frame| == 0 ==> r == []
    ensures |frame| > 0 ==> r == ConcurrencySeries(frame, now)
    ensures forall i, j :: 0 <= i <= j < |r| ==> r[j].concurrent <= r[i].concurrent
    ensures forall i :: 0 <= i < |r| ==> r[i].concurrent <= |Viewers(frame)|
    ensures forall i :: 0 <= i < |r| ==> r[i].concurrent == Concurrent(frame, r[i].sec)
    ensures |r| > 0 ==> r[|r| - 1].sec == CeilTo(now, Second)
  {
    Dashboard.ConcurrencyChart(frame, now)
  }

  /** Over the same 15-minute frame the endpoint returns the dashboard's concurrency chart. */
  lemma ConcurrencyMatchesDashboard(es: seq<Event>, now: int)
    requires |es| > 0
    ensures Concurrency(Since(es, now - ConcurrencyWindow), now) == Dashboard.LiveMetrics(es, now).value.concurrency
  {
    Dashboard.LiveUnfold(es, now);
  }

  /**
   * `/countries`: `[]` exactly for an empty frame, otherwise at most ten
   * distinct countries by non-increasing distinct viewers, each with its
   * true count.
   */
  function Countries(frame: seq<Event>): (r: seq<CountryCount>)
    ensures r == [] <==> |frame| == 0
    ensures |r| <= TopK && SortedDesc(r) && DistinctCountries(r)
    ensures forall x :: x in r ==> x.viewers == CountryViewers(frame, x.country)
    ensures Names(r) <= CountriesOf(frame)
  {
    TopCountriesComplete(frame);
    if |frame| == 0 then [] else TopCountries(frame)
  }

  /** Over the same 15-minute frame the endpoint returns the dashboard's country table. */
  lemma CountriesMatchDashboard(es: seq<Event>, now: int)
    requires |es| > 0
    ensures Countries(Since(es, now - ConcurrencyWindow)) == Dashboard.LiveMetrics(es, now).value.top
  {
    Dashboard.LiveUnfold(es, now);
    TopCountriesComplete(Since(es, now - ConcurrencyWindow));
  }
}

=== FILE: buckets.dfy ===
/**
 * pandas' `groupby(key).sum()` / `groupby(key).count()` on an integer key:
 * a list of buckets, one per distinct key, in ascending key order, each
 * holding the total of the weights that fell into it.
 */
module Buckets {
  import opened Events

  datatype Bucket = Bucket(key: int, total: int)

  /** One observation: the key it is grouped under and the weight it adds. */
  datatype Obs = Obs(key: int, weight: int)

  /** Keys strictly increase along the list (so they are also distinct). */
  predicate Ascending(b: seq<Bucket>)
  {
    forall i, j :: 0 <= i < j < |b| ==> b[i].key < b[j].key
  }

  function KeysOf(b: seq<Bucket>): set<int>
  {
    set x | x in b :: x.key
  }

  /** Sum of the totals of every bucket whose key is `k`. */
  function TotalAt(b: seq<Bucket>, k: int): int
  {
    if |b| == 0 then 0
    else (if b[0].key == k then b[0].total else 0) + TotalAt(b[1..], k)
  }

  /** Sum of all bucket totals. */
  function Sum(b: seq<Bucket>): int
  {
    if |b| == 0 then 0 else b[0].total + Sum(b[1..])
  }

  /** Reference definition: the weight the observations put on key `k`. */
  function WeightAt(obs: seq<Obs>, k: int): int
  {
    if |obs| == 0 then 0
    else (if obs[0].key == k then obs[0].weight else 0) + WeightAt(obs[1..], k)
  }

  /** Sum of all observation weights. */
  function TotalWeight(obs: seq<Obs>): int
  {
    if |obs| == 0 then 0 else obs[0].weight + TotalWeight(obs[1..])
  }

  function ObsKeys(obs: seq<Obs>): set<int>
  {
    set o | o in obs :: o.key
  }

  /** A key not present carries no weight. */
  lemma {:induction false} TotalAtAbsent(b: seq<Bucket>, k: int)
    requires k !in KeysOf(b)
    ensures TotalAt(b, k) == 0
  {
    if |b| > 0 {
      assert b[0] in b;
      assert forall x :: x in b[1..] ==> x in b;
      TotalAtAbsent(b[1..], k);
    }
  }

  /** In an ascending list the weight at a bucket's key is that bucket's total. */
  lemma {:induction false} TotalAtBucket(b: seq<Bucket>, i: int)
    requires Ascending(b)
    requires 0 <= i < |b|
    ensures TotalAt(b, b[i].key) == b[i].total
  {
    if i == 0 {
      assert forall x :: x in b[1..] ==> x.key > b[0].key;
      TotalAtAbsent(b[1..], b[0].key);
    } else {
      TotalAtBucket(b[1..], i - 1);
    }
  }

  /** Every key of `b` is above `lo`. */
  predicate Above(b: seq<Bucket>, lo: int)
  {
    forall i :: 0 <= i < |b| ==> b[i].key > lo
  }

  /** Adds weight `w` under key `k`, keeping the list ascending. */
  function Add(b: seq<Bucket>, k: int, w: int): (r: seq<Bucket>)
    requires Ascending(b)
    ensures Ascending(r)
    ensures forall lo :: Above(b, lo) && k > lo ==> Above(r, lo)
  {
    if |b| == 0 then
      [Bucket(k, w)]
    else if k < b[0].key then
      [Bucket(k, w)] + b
    else if k == b[0].key then
      [Bucket(k, b[0].total + w)] + b[1..]
    else
      assert Above(b[1..], b[0].key);
      [b[0]] + Add(b[1..], k, w)
  }

  lemma {:induction false} AddKeys(b: seq<Bucket>, k: int, w: int)
    requires Ascending(b)
    ensures KeysOf(Add(b, k, w)) == KeysOf(b) + {k}
  {
    if |b| > 0 && k > b[0].key {
      AddKeys(b[1..], k, w);
      KeysOfCons(b[0], Add(b[1..], k, w));
      KeysOfCons(b[0], b[1..]);
      assert b == [b[0]] + b[1..];
    } else if |b| > 0 && k == b[0].key {
      assert b == [b[0]] + b[1..];
    }
  }

  lemma KeysOfCons(x: Bucket, b: seq<Bucket>)
    ensures KeysOf([x] + b) == {x.key} + KeysOf(b)
  {
    assert forall y :: y in [x] + b <==> y == x || y in b;
  }

  lemma {:induction false} AddTotal(b: seq<Bucket>, k: int, w: int, k': int)
    requires Ascending(b)
    ensures TotalAt(Add(b, k, w), k') == TotalAt(b, k') + (if k' == k then w else 0)
  {
    var r := Add(b, k, w);
    if |b| == 0 {
    } else if k < b[0].key {
      assert r[1..] == b;
    } else if k == b[0].key {
      assert r[1..] == b[1..];
    } else {
      AddTotal(b[1..], k, w, k');
      assert r[1..] == Add(b[1..], k, w);
    }
  }

  lemma {:induction false} AddSum(b: seq<Bucket>, k: int, w: int)
    requires Ascending(b)
    ensures Sum(Add(b, k, w)) == Sum(b) + w
  {
    var r := Add(b, k, w);
    if |b| == 0 {
    } else if k < b[0].key {
      assert r[1..] == b;
    } else if k == b[0].key {
      assert r[1..] == b[1..];
    } else {
      AddSum(b[1..], k, w);
      assert r[1..] == Add(b[1..], k, w);
    }
  }

  lemma {:induction false} AddPositive(b: seq<Bucket>, k: int, w: int)
    requires Ascending(b)
    requires forall x :: x in b ==> x.total >= 1
    requires w >= 1
    ensures forall x :: x in Add(b, k, w) ==> x.total >= 1
  {
    if |b| > 0 && k > b[0].key {
      assert forall x :: x in b[1..] ==> x in b;
      AddPositive(b[1..], k, w);
    }
  }

  /**
   * `groupby(key).sum()`: one bucket per distinct key, in ascending key
   * order; `GroupSumTotals` says what each bucket holds.
   */
  function GroupSum(obs: seq<Obs>): (r: seq<Bucket>)
    ensures Ascending(r)
  {
    if |obs| == 0 then []
    else Add(GroupSum(obs[1..]), obs[0].key, obs[0].weight)
  }

  lemma {:induction false} GroupSumKeys(obs: seq<Obs>)
    ensures KeysOf(GroupSum(obs)) == ObsKeys(obs)
  {
    if |obs| > 0 {
      GroupSumKeys(obs[1..]);
      AddKeys(GroupSum(obs[1..]), obs[0].key, obs[0].weight);
      assert obs == [obs[0]] + obs[1..];
    }
  }

  /**
   * The grouping loses and invents nothing: the weight at every key, and the
   * total weight, are those of the observations.
   */
  lemma {:induction false} GroupSumTotals(obs: seq<Obs>)
    ensures forall k :: TotalAt(GroupSum(obs), k) == WeightAt(obs, k)
    ensures Sum(GroupSum(obs)) == TotalWeight(obs)
  {
    if |obs| > 0 {
      var rest := GroupSum(obs[1..]);
      GroupSumTotals(obs[1..]);
      forall k ensures TotalAt(GroupSum(obs), k) == WeightAt(obs, k) {
        AddTotal(rest, obs[0].key, obs[0].weight, k);
      }
      AddSum(rest, obs[0].key, obs[0].weight);
    }
  }

  /** With positive weights every bucket is non-empty. */
  lemma {:induction false} GroupSumPositive(obs: seq<Obs>)
    requires forall o :: o in obs ==> o.weight >= 1
    ensures forall x :: x in GroupSum(obs) ==> x.total >= 1
  {
    if |obs| > 0 {
      assert obs[0] in obs;
      assert forall o :: o in obs[1..] ==> o in obs;
      GroupSumPositive(obs[1..]);
      AddPositive(GroupSum(obs[1..]), obs[0].key, obs[0].weight);
    }
  }

  /** Each bucket of a grouping holds exactly the weight put on its key. */
  lemma GroupSumBuckets(obs: seq<Obs>)
    ensures forall i :: 0 <= i < |GroupSum(obs)| ==> GroupSum(obs)[i].total == WeightAt(obs, GroupSum(obs)[i].key)
  {
    var r := GroupSum(obs);
    GroupSumTotals(obs);
    forall i | 0 <= i < |r|
      ensures r[i].total == WeightAt(obs, r[i].key)
    {
      TotalAtBucket(r, i);
    }
  }

  /** Reading an ascending list back as observations. */
  function AsObs(b: seq<Bucket>): (r: seq<Obs>)
    ensures |r| == |b|
    ensures forall i :: 0 <= i < |b| ==> r[i] == Obs(b[i].key, b[i].total)
  {
    if |b| == 0 then [] else [Obs(b[0].key, b[0].total)] + AsObs(b[1..])
  }

  /** Grouping a list whose keys are already distinct and sorted changes nothing. */
  lemma {:induction false} GroupSumOfAscending(b: seq<Bucket>)
    requires Ascending(b)
    ensures GroupSum(AsObs(b)) == b
  {
    if |b| > 0 {
      var obs := AsObs(b);
      assert obs[1..] == AsObs(b[1..]);
      GroupSumOfAscending(b[1..]);
      var tail := b[1..];
      assert GroupSum(obs) == Add(tail, b[0].key, b[0].total);
      assert Bucket(b[0].key, b[0].total) == b[0];
      if |tail| > 0 {
        assert b[0].key < tail[0].key;
      }
      assert Add(tail, b[0].key, b[0].total) == [b[0]] + tail;
      assert b == [b[0]] + tail;
    }
  }

  // ---------------------------------------------------------------------------
  // Counting timestamps per floored bucket (`dt.floor(freq)` then `count()`).

  /** One unit-weight observation per timestamp, keyed by its floor. */
  function Tally(stamps: seq<int>, w: int): (r: seq<Obs>)
    requires w > 0
    ensures |r| == |stamps|
    ensures forall i :: 0 <= i < |r| ==> r[i] == Obs(FloorTo(stamps[i], w), 1)
  {
    if |stamps| == 0 then [] else [Obs(FloorTo(stamps[0], w), 1)] + Tally(stamps[1..], w)
  }

  /** Reference definition: how many timestamps floor to `k`. */
  function Occurrences(stamps: seq<int>, w: int, k: int): nat
    requires w > 0
  {
    if |stamps| == 0 then 0
    else (if FloorTo(stamps[0], w) == k then 1 else 0) + Occurrences(stamps[1..], w, k)
  }

  lemma {:induction false} TallyTotal(stamps: seq<int>, w: int)
    requires w > 0
    ensures TotalWeight(Tally(stamps, w)) == |stamps|
  {
    if |stamps| > 0 {
      TallyTotal(stamps[1..], w);
      assert Tally(stamps, w)[1..] == Tally(stamps[1..], w);
    }
  }

  lemma {:induction false} TallyWeightAt(stamps: seq<int>, w: int, k: int)
    requires w > 0
    ensures WeightAt(Tally(stamps, w), k) == Occurrences(stamps, w, k)
  {
    if |stamps| > 0 {
      TallyWeightAt(stamps[1..], w, k);
      assert Tally(stamps, w)[1..] == Tally(stamps[1..], w);
    }
  }

  lemma TallyKeys(stamps: seq<int>, w: int)
    requires w > 0
    ensures ObsKeys(Tally(stamps, w)) == set t | t in stamps :: FloorTo(t, w)
  {
    var r := Tally(stamps, w);
    forall k | k in ObsKeys(r)
      ensures k in set t | t in stamps :: FloorTo(t, w)
    {
      var o :| o in r && o.key == k;
      var i :| 0 <= i < |r| && r[i] == o;
      assert stamps[i] in stamps;
    }
    forall k | k in set t | t in stamps :: FloorTo(t, w)
      ensures k in ObsKeys(r)
    {
      var t :| t in stamps && FloorTo(t, w) == k;
      var i :| 0 <= i < |stamps| && stamps[i] == t;
      assert r[i] in r;
    }
  }

  /**
   * Counting timestamps per `w`-tick bucket: ascending distinct floored keys,
   * every count at least one, each count the number of timestamps flooring to
   * its key, and the counts summing to the number of timestamps.
   */
  function CountBy(stamps: seq<int>, w: int): (r: seq<Bucket>)
    requires w > 0
    ensures Ascending(r)
    ensures KeysOf(r) == set t | t in stamps :: FloorTo(t, w)
    ensures forall x :: x in r ==> x.total >= 1
    ensures forall i :: 0 <= i < |r| ==> r[i].total == Occurrences(stamps, w, r[i].key)
    ensures Sum(r) == |stamps|
    ensures |r| <= |stamps|
  {
    var obs := Tally(stamps, w);
    TallyTotal(stamps, w);
    TallyKeys(stamps, w);
    GroupSumKeys(obs);
    forall k ensures WeightAt(obs, k) == Occurrences(stamps, w, k) {
      TallyWeightAt(stamps, w, k);
    }
    GroupSumTotals(obs);
    GroupSumPositive(obs);
    GroupSumBuckets(obs);
    var r := GroupSum(obs);
    SumBound(r);
    r
  }

  /** When every total is at least one there are no more buckets than the sum. */
  lemma {:induction false} SumBound(b: seq<Bucket>)
    requires forall x :: x in b ==> x.total >= 1
    ensures |b| <= Sum(b)
  {
    if |b| > 0 {
      assert b[0] in b;
      assert forall x :: x in b[1..] ==> x in b;
      SumBound(b[1..]);
    }
  }

  /** An ascending list has exactly one bucket per distinct key. */
  lemma {:induction false} AscendingKeysCount(b: seq<Bucket>)
    requires Ascending(b)
    ensures |KeysOf(b)| == |b|
  {
    if |b| > 0 {
      assert b == [b[0]] + b[1..];
      KeysOfCons(b[0], b[1..]);
      AscendingKeysCount(b[1..]);
      assert b[0].key !in KeysOf(b[1..]);
    }
  }
}

=== FILE: dashboard.dfy ===
/**
 * The "Live Metrics" page shared by `app_pg.py` (Postgres) and `app.py`
 * (SQLite): both compute the same six panels over the loaded frame and stop
 * when the frame is empty.
 */
module Dashboard {
  import opened Wrappers
  import opened Events
  import opened Buckets
  import opened Window
  import opened Ranking

  /** What the page shows: the three KPIs, the per-second chart, the concurrency chart and the country table. */
  datatype Live = Live(active: nat, eps: real, avgDwell: Option<real>, perSecond: seq<Bucket>,
                       concurrency: seq<Sample>, top: seq<CountryCount>)

  /** The concurrency chart, drawn only when the 15-minute window holds an event. */
  function ConcurrencyChart(fifteen: seq<Event>, now: int): (r: seq<Sample>)
    ensures |fifteen| == 0 ==> r == []
    ensures |fifteen| > 0 ==> r == ConcurrencySeries(fifteen, now)
    ensures forall i, j :: 0 <= i <= j < |r| ==> r[j].concurrent <= r[i].concurrent
    ensures forall i :: 0 <= i < |r| ==> r[i].concurrent <= |Viewers(fifteen)|
  {
    if |fifteen| == 0 then []
    else
      SeriesNonIncreasing(fifteen, now);
      ConcurrencySeries(fifteen, now)
  }

  /**
   * The page over frame `es` at time `now`; `None` when the frame is empty
   * and the page stops with a notice. Every panel is within its natural
   * bounds, and the country table is empty exactly when nothing happened in
   * the last 15 minutes.
   */
  function LiveMetrics(es: seq<Event>, now: int): (r: Option<Live>)
    ensures r.None? <==> |es| == 0
    ensures r.Some? ==> r.value.active <= |Viewers(es)| && r.value.eps >= 0.0
    ensures r.Some? && r.value.avgDwell.Some? ==> r.value.avgDwell.value >= 0.0
    ensures r.Some? ==> |r.value.top| <= TopK && SortedDesc(r.value.top) && DistinctCountries(r.value.top)
    ensures r.Some? ==> (r.value.top == [] <==> Since(es, now - ConcurrencyWindow) == [])
    ensures r.Some? ==> Sum(r.value.perSecond) == |Since(es, now - BucketWindow)|
  {
    if |es| == 0 then None
    else
      var fifteen := Since(es, now - ConcurrencyWindow);
      TopCountriesComplete(fifteen);
      Some(Live(ActiveViewers(es, now), EventsPerSecond(es, now), AvgDwell(es, now),
                PerSecondBuckets(es, now), ConcurrencyChart(fifteen, now), TopCountries(fifteen)))
  }

  /** The events/sec KPI never exceeds what the per-second chart shows over its five minutes. */
  lemma RateWithinChart(es: seq<Event>, now: int)
    requires |es| > 0
    ensures LiveMetrics(es, now).value.eps * 10.0 <= Sum(LiveMetrics(es, now).value.perSecond) as real
  {
    SinceShrinks(es, now - BucketWindow, now - RateWindow);
  }

  /** The concurrency chart ends at or below the "Concurrent" KPI. */
  lemma ChartEndsAtMostActive(es: seq<Event>, now: int)
    requires |es| > 0
    ensures var c := LiveMetrics(es, now).value.concurrency;
            |c| > 0 ==> c[|c| - 1].concurrent <= LiveMetrics(es, now).value.active
  {
    var fifteen := Since(es, now - ConcurrencyWindow);
    var c := ConcurrencyChart(fifteen, now);
    if |c| > 0 {
      assert c[|c| - 1].sec == CeilTo(now, Second);
      ConcurrentAntitone(fifteen, now, CeilTo(now, Second));
      ConcurrentAtNowIsActive(fifteen, now);
      ActiveDependsOnlyOnWindow(fifteen, now);
      ActiveDependsOnlyOnWindow(es, now);
      SinceNested(es, now - ConcurrencyWindow, now - ActiveWindow);
    }
  }

  /** Two frames that agree on every window the page looks at. */
  predicate SameWindows(a: seq<Event>, b: seq<Event>, now: int)
  {
    && Since(a, now - ActiveWindow) == Since(b, now - ActiveWindow)
    && Since(a, now - RateWindow) == Since(b, now - RateWindow)
    && Since(a, now - DwellWindow) == Since(b, now - DwellWindow)
    && Since(a, now - BucketWindow) == Since(b, now - BucketWindow)
    && Since(a, now - ConcurrencyWindow) == Since(b, now - ConcurrencyWindow)
  }

  /** The page depends only on the windowed events, never on the rest of the frame. */
  lemma PageDependsOnlyOnWindows(a: seq<Event>, b: seq<Event>, now: int)
    requires |a| > 0 && |b| > 0 && SameWindows(a, b, now)
    ensures LiveMetrics(a, now) == LiveMetrics(b, now)
  {
    LiveUnfold(a, now);
    LiveUnfold(b, now);
    var la, lb := LiveMetrics(a, now).value, LiveMetrics(b, now).value;
    assert la.active == lb.active by {
      ActiveOfWindow(a, b, now);
    }
    assert la.eps == lb.eps;
    assert la.avgDwell == lb.avgDwell by {
      AvgDwellOfWindow(a, b, now);
    }
    assert la.perSecond == lb.perSecond by {
      BucketsOfWindow(a, b, now);
    }
    assert la.concurrency == lb.concurrency && la.top == lb.top;
  }

  lemma LiveUnfold(a: seq<Event>, now: int)
    requires |a| > 0
    ensures var fifteen := Since(a, now - ConcurrencyWindow);
            LiveMetrics(a, now) == Some(Live(ActiveViewers(a, now), EventsPerSecond(a, now), AvgDwell(a, now),
                PerSecondBuckets(a, now), ConcurrencyChart(fifteen, now), TopCountries(fifteen)))
  {
  }

  lemma ActiveOfWindow(a: seq<Event>, b: seq<Event>, now: int)
    requires Since(a, now - ActiveWindow) == Since(b, now - ActiveWindow)
    ensures ActiveViewers(a, now) == ActiveViewers(b, now)
  {
    ActiveDependsOnlyOnWindow(a, now);
    ActiveDependsOnlyOnWindow(b, now);
  }

  lemma AvgDwellOfWindow(a: seq<Event>, b: seq<Event>, now: int)
    requires Since(a, now - DwellWindow) == Since(b, now - DwellWindow)
    ensures AvgDwell(a, now) == AvgDwell(b, now)
  {
  }

  lemma BucketsOfWindow(a: seq<Event>, b: seq<Event>, now: int)
    requires Since(a, now - BucketWindow) == Since(b, now - BucketWindow)
    ensures PerSecondBuckets(a, now) == PerSecondBuckets(b, now)
  {
  }

  /** An event whose timestamp is missing changes no panel of a non-empty page. */
  lemma UntimedEventIgnored(es: seq<Event>, e: Event, now: int)
    requires |es| > 0 && e.ts.None?
    ensures LiveMetrics(es + [e], now) == LiveMetrics(es, now)
  {
    SinceAppend(es, e, now - ActiveWindow);
    SinceAppend(es, e, now - RateWindow);
    SinceAppend(es, e, now - DwellWindow);
    SinceAppend(es, e, now - BucketWindow);
    SinceAppend(es, e, now - ConcurrencyWindow);
    PageDependsOnlyOnWindows(es + [e], es, now);
  }
}

/**
 * `load_df` of `app.py`: the SQLite `events` table read into a frame, with
 * unparsable timestamps coerced to NaT and a missing database file read as
 * an empty frame.
 */
module SqliteApp {
  import opened Wrappers
  import opened Events
  import Dashboard

  /** One row of the SQLite `events` table, as stored. */
  datatype StoredRow = StoredRow(id: int, ts: string, viewer: string, video: string, eventType: string, country: string)

  /** The frame row for a stored row; `parse` is the timestamp parser, `None` for NaT. */
  function ToEvent(row: StoredRow, parse: string -> Option<int>): Event
  {
    Event(parse(row.ts), row.viewer, row.video, KindOf(row.eventType), row.country)
  }

  /**
   * `load_df`: `None` is a missing database file, which gives an empty frame;
   * otherwise one event per stored row, in table order.
   */
  function LoadDf(db: Option<seq<StoredRow>>, parse: string -> Option<int>): (r: seq<Event>)
    ensures db.None? ==> r == []
    ensures db.Some? ==> |r| == |db.value|
    ensures db.Some? ==> forall i :: 0 <= i < |r| ==> r[i] == ToEvent(db.value[i], parse)
  {
    match db
    case None => []
    case Some(rows) => seq(|rows|, i requires 0 <= i < |rows| => ToEvent(rows[i], parse))
  }

  /** The SQLite page: the shared live page over the loaded frame. */
  function Page(db: Option<seq<StoredRow>>, parse: string -> Option<int>, now: int): (r: Option<Dashboard.Live>)
    ensures db.None? ==> r.None?
    ensures r.None? <==> db.None? || |db.value| == 0
  {
    Dashboard.LiveMetrics(LoadDf(db, parse), now)
  }

  /** A stored row whose timestamp does not parse changes nothing on a non-empty page. */
  lemma UnparsableRowIgnored(rows: seq<StoredRow>, bad: StoredRow, parse: string -> Option<int>, now: int)
    requires |rows| > 0 && parse(bad.ts).None?
    ensures Page(Some(rows + [bad]), parse, now) == Page(Some(rows), parse, now)
  {
    var es := LoadDf(Some(rows), parse);
    assert LoadDf(Some(rows + [bad]), parse) == es + [ToEvent(bad, parse)];
    Dashboard.UntimedEventIgnored(es, ToEvent(bad, parse), now);
  }
}

=== FILE: events.dfy ===
/**
 * The engagement event as the analytics code sees it once a frame has been
 * loaded: a timestamp in nanosecond ticks (pandas' own representation, `None`
 * for NaT), the viewer, the video, the event type and the country.
 *
 * The module also holds the reductions every consumer shares: the window
 * predicate `ts >= lo`, second/minute flooring and ceiling, the distinct
 * viewers of a frame and the per-viewer earliest start / latest end.
 */
module Events {
  import opened Wrappers

  /** One second in ticks. */
  const Second: int := 1_000_000_000
  /** One minute in ticks. */
  const Minute: int := 60 * Second

  /**
   * The event type. The source keeps it as text and only ever tests it for
   * equality with "view_start" and "view_end", so every other string behaves
   * exactly like a heartbeat (see `KindOf`).
   */
  datatype Kind = ViewStart | Heartbeat | ViewEnd

  function KindOf(name: string): (k: Kind)
    ensures k == ViewStart <==> name == "view_start"
    ensures k == ViewEnd <==> name == "view_end"
  {
    if name == "view_start" then ViewStart
    else if name == "view_end" then ViewEnd
    else Heartbeat
  }

  datatype Event = Event(ts: Option<int>, viewer: string, video: string, kind: Kind, country: string)

  /** pandas' `df["ts"] >= lo`: a NaT timestamp compares false. */
  predicate AtOrAfter(e: Event, lo: int)
  {
    e.ts.Some? && e.ts.value >= lo
  }

  /** A tick count as pandas' `total_seconds()`. */
  function Seconds(ticks: int): real
  {
    ticks as real / Second as real
  }

  /** `w * d` strictly between `-w` and `w` (for `w > 0`) forces `d == 0`. */
  lemma {:induction false} MulBounds(w: int, d: int)
    requires w > 0
    ensures d >= 1 ==> w * d >= w
    ensures d <= -1 ==> w * d <= -w
    decreases if d < 0 then -d else d
  {
    if d > 1 {
      MulBounds(w, d - 1);
      assert w * d == w * (d - 1) + w;
    } else if d < -1 {
      MulBounds(w, d + 1);
      assert w * d == w * (d + 1) - w;
    }
  }

  /** A multiple of `w` leaves no remainder. */
  lemma MultipleMod(q: int, w: int)
    requires w > 0
    ensures (q * w) % w == 0
  {
    var x := q * w;
    assert x == w * (x / w) + x % w;
    assert x % w == w * (q - x / w);
    MulBounds(w, q - x / w);
  }

  /** `Timestamp.floor(freq)` for a frequency of `w` ticks. */
  function FloorTo(t: int, w: int): (r: int)
    requires w > 0
    ensures r <= t < r + w
    ensures r % w == 0
  {
    assert t == (t / w) * w + t % w;
    MultipleMod(t / w, w);
    (t / w) * w
  }

  /** `Timestamp.ceil(freq)` for a frequency of `w` ticks. */
  function CeilTo(t: int, w: int): (r: int)
    requires w > 0
    ensures r - w < t <= r
    ensures r % w == 0
  {
    var f := FloorTo(-t, w);
    assert f == (f / w) * w;
    MultipleMod(-(f / w), w);
    assert -f == (-(f / w)) * w;
    -f
  }

  /** The distinct elements of `xs`, in order of first appearance. */
  function Distinct(xs: seq<string>): (r: seq<string>)
    ensures forall x :: x in r <==> x in xs
    ensures forall i, j :: 0 <= i < j < |r| ==> r[i] != r[j]
    ensures |r| <= |xs|
  {
    if |xs| == 0 then []
    else
      var rest := Distinct(xs[..|xs| - 1]);
      var last := xs[|xs| - 1];
      assert xs == xs[..|xs| - 1] + [last];
      if last in rest then rest else rest + [last]
  }

  /** A subset is no larger than its superset. */
  lemma {:induction false} SubsetCard(a: set<string>, b: set<string>)
    requires a <= b
    ensures |a| <= |b|
    decreases a
  {
    if a != {} {
      var x :| x in a;
      SubsetCard(a - {x}, b - {x});
    }
  }

  /** Distinct viewer ids of a frame (`df["viewer_id"]` as a set). */
  function Viewers(es: seq<Event>): set<string>
  {
    set e | e in es :: e.viewer
  }

  /** The defined timestamps of every event in the frame. */
  function Stamps(es: seq<Event>): (r: seq<int>)
    ensures |r| <= |es|
    ensures forall t :: t in r <==> exists e :: e in es && e.ts == Some(t)
  {
    if |es| == 0 then []
    else
      var rest := Stamps(es[1..]);
      assert forall e :: e in es <==> e == es[0] || e in es[1..];
      if es[0].ts.Some? then [es[0].ts.value] + rest else rest
  }

  /** The defined timestamps of viewer `v`'s events of kind `k`. */
  function TsOf(es: seq<Event>, v: string, k: Kind): seq<int>
  {
    if |es| == 0 then []
    else if es[0].viewer == v && es[0].kind == k && es[0].ts.Some? then [es[0].ts.value] + TsOf(es[1..], v, k)
    else TsOf(es[1..], v, k)
  }

  /** `TsOf` holds exactly the timestamps of the matching timed events. */
  lemma {:induction false} TsOfMembers(es: seq<Event>, v: string, k: Kind)
    ensures forall e :: e in es && e.viewer == v && e.kind == k && e.ts.Some? ==> e.ts.value in TsOf(es, v, k)
    ensures forall t :: t in TsOf(es, v, k) ==> exists e :: e in es && e.viewer == v && e.kind == k && e.ts == Some(t)
  {
    if |es| > 0 {
      TsOfMembers(es[1..], v, k);
      assert forall e :: e in es <==> e == es[0] || e in es[1..];
    }
  }

  /** pandas' `min()` on a column: NaN when empty. */
  function MinOf(xs: seq<int>): (r: Option<int>)
    ensures r.None? <==> |xs| == 0
    ensures r.Some? ==> r.value in xs && forall x :: x in xs ==> r.value <= x
  {
    if |xs| == 0 then None
    else
      var rest := MinOf(xs[1..]);
      assert forall x :: x in xs <==> x == xs[0] || x in xs[1..];
      if rest.None? || xs[0] <= rest.value then Some(xs[0]) else rest
  }

  /** pandas' `max()` on a column: NaN when empty. */
  function MaxOf(xs: seq<int>): (r: Option<int>)
    ensures r.None? <==> |xs| == 0
    ensures r.Some? ==> r.value in xs && forall x :: x in xs ==> x <= r.value
  {
    if |xs| == 0 then None
    else
      var rest := MaxOf(xs[1..]);
      assert forall x :: x in xs <==> x == xs[0] || x in xs[1..];
      if rest.None? || xs[0] >= rest.value then Some(xs[0]) else rest
  }

  /** The minimum and the maximum depend only on which values occur. */
  lemma ExtremaDependOnlyOnElements(xs: seq<int>, ys: seq<int>)
    requires forall x :: x in xs <==> x in ys
    ensures MinOf(xs) == MinOf(ys)
    ensures MaxOf(xs) == MaxOf(ys)
  {
    if |xs| != 0 {
      assert xs[0] in xs;
    }
  }

  /** `groupby("viewer_id")["ts"].min()` over `view_start` events. */
  function FirstStart(es: seq<Event>, v: string): Option<int>
  {
    MinOf(TsOf(es, v, ViewStart))
  }

  /** `groupby("viewer_id")["ts"].max()` over `view_end` events. */
  function LastEnd(es: seq<Event>, v: string): Option<int>
  {
    MaxOf(TsOf(es, v, ViewEnd))
  }

  /**
   * The start is defined exactly when the viewer has a `view_start` with a
   * timestamp, and is then the earliest such timestamp.
   */
  lemma FirstStartIsEarliest(es: seq<Event>, v: string)
    ensures FirstStart(es, v).None? <==> forall e :: e in es && e.viewer == v && e.kind == ViewStart ==> e.ts.None?
    ensures FirstStart(es, v).Some? ==> exists e :: e in es && e.viewer == v && e.kind == ViewStart && e.ts == FirstStart(es, v)
    ensures FirstStart(es, v).Some? ==> forall e :: e in es && e.viewer == v && e.kind == ViewStart && e.ts.Some? ==> FirstStart(es, v).value <= e.ts.value
  {
    TsOfMembers(es, v, ViewStart);
  }

  /**
   * The end is defined exactly when the viewer has a `view_end` with a
   * timestamp, and is then the latest such timestamp.
   */
  lemma LastEndIsLatest(es: seq<Event>, v: string)
    ensures LastEnd(es, v).None? <==> forall e :: e in es && e.viewer == v && e.kind == ViewEnd ==> e.ts.None?
    ensures LastEnd(es, v).Some? ==> exists e :: e in es && e.viewer == v && e.kind == ViewEnd && e.ts == LastEnd(es, v)
    ensures LastEnd(es, v).Some? ==> forall e :: e in es && e.viewer == v && e.kind == ViewEnd && e.ts.Some? ==> e.ts.value <= LastEnd(es, v).value
  {
    TsOfMembers(es, v, ViewEnd);
  }

  /** The latest end, or `now` for a viewer still watching (`fillna(now)`). */
  function EndOrNow(es: seq<Event>, v: string, now: int): int
  {
    LastEnd(es, v).GetOr(now)
  }

  /**
   * The filled end is `now` for a viewer without a timed `view_end`, and
   * otherwise the timestamp of its latest one.
   */
  lemma EndOrNowIsLatestOrNow(es: seq<Event>, v: string, now: int)
    ensures (forall e :: e in es && e.viewer == v && e.kind == ViewEnd ==> e.ts.None?) ==> EndOrNow(es, v, now) == now
    ensures (exists e :: e in es && e.viewer == v && e.kind == ViewEnd && e.ts.Some?) ==>
      (exists e :: e in es && e.viewer == v && e.kind == ViewEnd && e.ts == Some(EndOrNow(es, v, now))) &&
      (forall e :: e in es && e.viewer == v && e.kind == ViewEnd && e.ts.Some? ==> e.ts.value <= EndOrNow(es, v, now))
  {
    LastEndIsLatest(es, v);
  }

  /**
   * Earliest start and latest end are commutative, idempotent reductions:
   * they see only which events occur, not their order or multiplicity.
   */
  lemma ReductionsDependOnlyOnEventSet(es1: seq<Event>, es2: seq<Event>, v: string)
    requires forall e :: e in es1 <==> e in es2
    ensures FirstStart(es1, v) == FirstStart(es2, v)
    ensures LastEnd(es1, v) == LastEnd(es2, v)
  {
    TsOfMembers(es1, v, ViewStart);
    TsOfMembers(es2, v, ViewStart);
    TsOfMembers(es1, v, ViewEnd);
    TsOfMembers(es2, v, ViewEnd);
    ExtremaDependOnlyOnElements(TsOf(es1, v, ViewStart), TsOf(es2, v, ViewStart));
    ExtremaDependOnlyOnElements(TsOf(es1, v, ViewEnd), TsOf(es2, v, ViewEnd));
  }
}

=== FILE: ingest.dfy ===
/**
 * The Kafka-to-Postgres consumer loop of `src/kafka_consumer.py` as a state
 * machine. The broker, the clock and the database are inputs: every loop
 * iteration is one `Tick` that says what the poll returned, what the clock
 * read and whether the batch insert would commit.
 */
module Ingest {
  import opened Wrappers
  import opened Events

  /** One buffered insert: the five columns of the `events` table as the message carried them. */
  datatype Row = Row(ts: string, viewer: string, video: string, eventType: string, country: string)

  /** `BATCH_SIZE` rows and `FLUSH_SEC` (here in clock ticks). */
  datatype Config = Config(batchSize: int, flushTicks: int)

  /** The defaults: a batch of 100 rows, a flush at least every 2 seconds. */
  const DefaultConfig: Config := Config(100, 2 * Second)

  /** Country written when a message has none. */
  const DefaultCountry: string := "US"

  /** The keys a message must carry to be buffered. */
  const RequiredKeys: set<string> := {"ts", "viewer_id", "video_id", "event_type"}

  /** The loop's globals: the buffer, the running insert count and the last successful flush. */
  datatype Consumer = Consumer(rows: seq<Row>, inserted: int, lastFlush: int)

  /** The consumer together with the durable contents of the `events` table. */
  datatype World = World(consumer: Consumer, table: seq<Row>)

  /**
   * What one `poll` returned: nothing, a broker error, or a message whose
   * payload decoded to a JSON object (`None` when UTF-8 or JSON decoding
   * failed, or when the JSON is not an object, so that reading a key raises).
   */
  datatype Poll = Idle | BrokerError | Delivered(payload: Option<map<string, string>>)

  /** One loop iteration's inputs. */
  datatype Tick = Tick(poll: Poll, clock: int, writeOk: bool)

  /** A fresh consumer over an existing table, started at `clock`. */
  function Start(table: seq<Row>, clock: int): (w: World)
    ensures w.consumer.rows == [] && w.consumer.inserted == 0 && w.table == table
    ensures Counted(w, table)
  {
    World(Consumer([], 0, clock), table)
  }

  /** The message a producer sends for `r`. */
  function Encode(r: Row): (m: map<string, string>)
    ensures m.Keys == RequiredKeys + {"country"}
  {
    map["ts" := r.ts, "viewer_id" := r.viewer, "video_id" := r.video,
        "event_type" := r.eventType, "country" := r.country]
  }

  /**
   * Turning a decoded message into a row: the four required keys must be
   * present and are copied; `country` falls back to "US"; any other message
   * is dropped.
   */
  function ParseRow(payload: Option<map<string, string>>): (r: Option<Row>)
    ensures r.Some? <==> payload.Some? && RequiredKeys <= payload.value.Keys
    ensures r.Some? ==> forall k :: k in RequiredKeys ==> Encode(r.value)[k] == payload.value[k]
    ensures r.Some? && "country" in payload.value ==> r.value.country == payload.value["country"]
    ensures r.Some? && "country" !in payload.value ==> r.value.country == DefaultCountry
  {
    match payload
    case None => None
    case Some(m) =>
      if RequiredKeys <= m.Keys then
        Some(Row(m["ts"], m["viewer_id"], m["video_id"], m["event_type"],
                 if "country" in m then m["country"] else DefaultCountry))
      else None
  }

  /** Every row a producer encodes is buffered unchanged. */
  lemma ParseEncode(r: Row)
    ensures ParseRow(Some(Encode(r))) == Some(r)
  {
    assert RequiredKeys <= Encode(r).Keys;
  }

  /** A message without a country is buffered with country "US". */
  lemma ParseWithoutCountry(r: Row)
    ensures ParseRow(Some(Encode(r) - {"country"})) == Some(r.(country := DefaultCountry))
  {
    var m := Encode(r) - {"country"};
    assert RequiredKeys <= m.Keys;
    assert "country" !in m;
  }

  /** The running count matches what this consumer has added to the table since `base`. */
  ghost predicate Counted(w: World, base: seq<Row>)
  {
    |base| <= |w.table| && w.table[..|base|] == base && w.consumer.inserted == |w.table| - |base|
  }

  /**
   * `flush_rows`: nothing when the buffer is empty; otherwise the rows are
   * inserted in one transaction, and on commit the count grows by the batch,
   * the buffer empties and the flush time is reset, while a failed
   * transaction leaves everything as it was.
   */
  function Flush(w: World, clock: int, ok: bool): (r: World)
    ensures r.table + r.consumer.rows == w.table + w.consumer.rows
    ensures r.consumer.inserted - |r.table| == w.consumer.inserted - |w.table|
    ensures w.consumer.rows == [] || !ok <==> r == w
    ensures ok ==> r.consumer.rows == []
    ensures ok && w.consumer.rows != [] ==> r.consumer.lastFlush == clock
  {
    var c := w.consumer;
    if |c.rows| == 0 then w
    else if ok then
      World(Consumer([], c.inserted + |c.rows|, clock), w.table + c.rows)
    else w
  }

  /** Whether `FLUSH_SEC` has elapsed since the last successful flush. */
  predicate TimeUp(cfg: Config, c: Consumer, clock: int)
  {
    clock - c.lastFlush >= cfg.flushTicks
  }

  /**
   * A committed flush restarts the interval: the timer is due again exactly
   * `FLUSH_SEC` after the flush, at any later reading of the clock.
   */
  lemma TimeUpAfterFlush(cfg: Config, w: World, clock: int, later: int)
    requires w.consumer.rows != []
    ensures TimeUp(cfg, Flush(w, clock, true).consumer, later) <==> later >= clock + cfg.flushTicks
  {
  }

  /** The row a tick contributes to the buffer, if any. */
  function Accept(t: Tick): (r: seq<Row>)
    ensures |r| <= 1
  {
    if t.poll.Delivered? && ParseRow(t.poll.payload).Some? then [ParseRow(t.poll.payload).value] else []
  }

  /**
   * Whether a tick triggers a flush: an empty poll once the interval has
   * elapsed, a delivered message once the buffer including it holds a full
   * batch or the interval has elapsed, and a broker error never.
   */
  predicate FlushDue(cfg: Config, w: World, t: Tick)
  {
    || (t.poll.Idle? && TimeUp(cfg, w.consumer, t.clock))
    || (t.poll.Delivered? &&
        (|w.consumer.rows + Accept(t)| >= cfg.batchSize || TimeUp(cfg, w.consumer, t.clock)))
  }

  /**
   * One loop iteration. An empty poll flushes when the interval has elapsed;
   * a broker error does nothing; a message is parsed and buffered (a bad one
   * is dropped) and then the buffer is flushed when it holds a full batch or
   * the interval has elapsed.
   */
  function Step(cfg: Config, w: World, t: Tick): (r: World)
    ensures r.table + r.consumer.rows == w.table + w.consumer.rows + Accept(t)
    ensures r.consumer.inserted - |r.table| == w.consumer.inserted - |w.table|
    ensures FlushDue(cfg, w, t) && t.writeOk ==>
      r.consumer.rows == [] && r.table == w.table + w.consumer.rows + Accept(t)
    ensures FlushDue(cfg, w, t) && t.writeOk && w.consumer.rows + Accept(t) != [] ==>
      r.consumer.lastFlush == t.clock
    ensures !FlushDue(cfg, w, t) ==>
      r.table == w.table && r.consumer == w.consumer.(rows := w.consumer.rows + Accept(t))
    ensures !t.writeOk || w.consumer.rows + Accept(t) == [] ==>
      r.table == w.table && r.consumer == w.consumer.(rows := w.consumer.rows + Accept(t))
    ensures t.poll.BrokerError? ==> r == w
  {
    match t.poll
    case Idle =>
      if TimeUp(cfg, w.consumer, t.clock) then Flush(w, t.clock, t.writeOk) else w
    case BrokerError => w
    case Delivered(payload) =>
      var w1 := w.(consumer := w.consumer.(rows := w.consumer.rows + Accept(t)));
      if |w1.consumer.rows| >= cfg.batchSize || TimeUp(cfg, w1.consumer, t.clock)
      then Flush(w1, t.clock, t.writeOk) else w1
  }

  /** The rows accepted over a run, in arrival order. */
  function Accepted(ts: seq<Tick>): (r: seq<Row>)
    ensures |r| <= |ts|
  {
    if |ts| == 0 then [] else Accepted(ts[..|ts| - 1]) + Accept(ts[|ts| - 1])
  }

  /**
   * The loop over a sequence of ticks. In this model, where a write either
   * commits or fails as a whole, no accepted row is lost or duplicated:
   * the table followed by the buffer is always the starting table and buffer
   * followed by every accepted row, and the running count keeps tracking the
   * table.
   */
  function Run(cfg: Config, w: World, ts: seq<Tick>): (r: World)
    ensures r.table + r.consumer.rows == w.table + w.consumer.rows + Accepted(ts)
    ensures r.consumer.inserted - |r.table| == w.consumer.inserted - |w.table|
    ensures |w.table| <= |r.table| && r.table[..|w.table|] == w.table
    decreases |ts|
  {
    if |ts| == 0 then w
    else
      var before := Run(cfg, w, ts[..|ts| - 1]);
      var r := Step(cfg, before, ts[|ts| - 1]);
      assert r.table[..|before.table|] == before.table by {
        StepExtendsTable(cfg, before, ts[|ts| - 1]);
      }
      assert r.table[..|w.table|] == before.table[..|w.table|];
      r
  }

  /** A tick only ever appends to the table. */
  lemma StepExtendsTable(cfg: Config, w: World, t: Tick)
    ensures |w.table| <= |Step(cfg, w, t).table|
    ensures Step(cfg, w, t).table[..|w.table|] == w.table
  {
  }

  /**
   * `finally: flush_rows()`: on shutdown whatever is buffered is written
   * once more; if that commits, every row ever accepted is in the table.
   */
  function Shutdown(w: World, clock: int, ok: bool): (r: World)
    ensures ok ==> r.consumer.rows == [] && r.table == w.table + w.consumer.rows
    ensures !ok ==> r == w
  {
    Flush(w, clock, ok)
  }

  /** After a committed shutdown the table holds exactly the start table plus all accepted rows. */
  lemma RunThenShutdown(cfg: Config, table: seq<Row>, t0: int, ts: seq<Tick>, clock: int)
    ensures var r := Shutdown(Run(cfg, Start(table, t0), ts), clock, true);
            r.table == table + Accepted(ts) && Counted(r, table)
  {
    var w := Run(cfg, Start(table, t0), ts);
    assert w.table + w.consumer.rows == table + Accepted(ts);
  }

  /** From a fresh start, rows inserted plus rows buffered is the number of messages accepted so far. */
  lemma InsertedPlusBuffered(cfg: Config, table: seq<Row>, t0: int, ts: seq<Tick>)
    ensures var r := Run(cfg, Start(table, t0), ts);
            r.consumer.inserted + |r.consumer.rows| == |Accepted(ts)| && Counted(r, table)
  {
    var r := Run(cfg, Start(table, t0), ts);
    assert |r.table + r.consumer.rows| == |table + Accepted(ts)|;
  }

  /** With every write committing, the buffer never reaches a full batch between ticks. */
  lemma {:induction false} BufferBelowBatch(cfg: Config, w: World, ts: seq<Tick>)
    requires cfg.batchSize >= 1 && |w.consumer.rows| < cfg.batchSize
    requires forall i :: 0 <= i < |ts| ==> ts[i].writeOk
    ensures |Run(cfg, w, ts).consumer.rows| < cfg.batchSize
    decreases |ts|
  {
    if |ts| > 0 {
      var prefix := ts[..|ts| - 1];
      assert forall i :: 0 <= i < |prefix| ==> prefix[i] == ts[i];
      BufferBelowBatch(cfg, w, prefix);
      assert Run(cfg, w, ts) == Step(cfg, Run(cfg, w, prefix), ts[|ts| - 1]);
      StepBelowBatch(cfg, Run(cfg, w, prefix), ts[|ts| - 1]);
    }
  }

  /** One committed iteration keeps the buffer below a full batch. */
  lemma StepBelowBatch(cfg: Config, w: World, t: Tick)
    requires cfg.batchSize >= 1 && |w.consumer.rows| < cfg.batchSize && t.writeOk
    ensures |Step(cfg, w, t).consumer.rows| < cfg.batchSize
  {
  }

  /** A failed write loses nothing: the table stays and the buffer keeps every accepted row. */
  lemma {:induction false} FailedWritesKeepBuffer(cfg: Config, w: World, ts: seq<Tick>)
    requires forall i :: 0 <= i < |ts| ==> !ts[i].writeOk
    ensures Run(cfg, w, ts).table == w.table
    ensures Run(cfg, w, ts).consumer.rows == w.consumer.rows + Accepted(ts)
    decreases |ts|
  {
    if |ts| > 0 {
      var prefix := ts[..|ts| - 1];
      assert forall i :: 0 <= i < |prefix| ==> prefix[i] == ts[i];
      FailedWritesKeepBuffer(cfg, w, prefix);
      assert Accepted(ts) == Accepted(prefix) + Accept(ts[|ts| - 1]);
    }
  }

  /**
   * An empty buffer never resets the flush time, so after a quiet spell the
   * first valid message is written at once, alone.
   */
  lemma FirstMessageAfterQuietSpell(cfg: Config, w: World, m: map<string, string>, clock: int)
    requires w.consumer.rows == [] && TimeUp(cfg, w.consumer, clock)
    requires RequiredKeys <= m.Keys
    ensures var r := Step(cfg, w, Tick(Delivered(Some(m)), clock, true));
            r.consumer.rows == [] && r.table == w.table + [ParseRow(Some(m)).value] && r.consumer.lastFlush == clock
  {
  }

  /** An idle poll with nothing buffered changes nothing, not even the flush time. */
  lemma IdleWithEmptyBuffer(cfg: Config, w: World, t: Tick)
    requires t.poll.Idle? && w.consumer.rows == []
    ensures Step(cfg, w, t) == w
  {
  }

  /** A malformed message is dropped but still lets an overdue buffer flush. */
  lemma BadMessageStillFlushes(cfg: Config, w: World, t: Tick)
    requires t.poll.Delivered? && ParseRow(t.poll.payload).None?
    requires w.consumer.rows != [] && TimeUp(cfg, w.consumer, t.clock) && t.writeOk
    ensures Step(cfg, w, t).consumer.rows == []
    ensures Step(cfg, w, t).table == w.table + w.consumer.rows
  {
  }

  // ---------------------------------------------------------------------------
  // A burst of messages that arrives faster than the flush interval.

  /** `n` copies of a valid message, all read at the same instant, all writes committing. */
  function Burst(n: nat, m: map<string, string>, clock: int): (ts: seq<Tick>)
    ensures |ts| == n
    ensures forall i :: 0 <= i < n ==> ts[i] == Tick(Delivered(Some(m)), clock, true)
  {
    seq(n, i => Tick(Delivered(Some(m)), clock, true))
  }

  /**
   * With the default configuration, a burst of `n` valid messages starting
   * from an empty buffer writes `n / 100` full batches and keeps the
   * remaining `n % 100` rows buffered.
   */
  lemma {:induction false} BurstWritesWholeBatches(n: nat, m: map<string, string>, w: World, clock: int)
    requires RequiredKeys <= m.Keys
    requires w.consumer.rows == [] && w.consumer.lastFlush == clock
    ensures var r := Run(DefaultConfig, w, Burst(n, m, clock));
            |r.table| == |w.table| + (n / 100) * 100 && |r.consumer.rows| == n % 100
            && r.consumer.lastFlush == clock
  {
    if n > 0 {
      var ts := Burst(n, m, clock);
      assert ts[..n - 1] == Burst(n - 1, m, clock);
      BurstWritesWholeBatches(n - 1, m, w, clock);
      var prev := Run(DefaultConfig, w, ts[..n - 1]);
      var t := Tick(Delivered(Some(m)), clock, true);
      assert ts[n - 1] == t;
      assert Run(DefaultConfig, w, ts) == Step(DefaultConfig, prev, t);
      BurstTick(prev, m, clock);
      BatchCountStep(n);
    }
  }

  /** Counting one more message either completes a batch of 100 or grows the partial one. */
  lemma BatchCountStep(n: nat)
    requires n > 0
    ensures (n - 1) % 100 == 99 ==> n / 100 == (n - 1) / 100 + 1 && n % 100 == 0
    ensures (n - 1) % 100 != 99 ==> n / 100 == (n - 1) / 100 && n % 100 == (n - 1) % 100 + 1
  {
  }

  /** One message of a burst: it fills the buffer, and the hundredth one flushes it. */
  lemma BurstTick(w: World, m: map<string, string>, clock: int)
    requires RequiredKeys <= m.Keys
    requires |w.consumer.rows| < 100 && w.consumer.lastFlush == clock
    ensures var r := Step(DefaultConfig, w, Tick(Delivered(Some(m)), clock, true));
            r.consumer.lastFlush == clock
            && (if |w.consumer.rows| == 99 then |r.table| == |w.table| + 100 && r.consumer.rows == []
                else r.table == w.table && |r.consumer.rows| == |w.consumer.rows| + 1)
  {
  }

  /** 150 messages in one burst: the first 100 are written, 50 stay buffered. */
  lemma BurstOf150(m: map<string, string>, w: World, clock: int)
    requires RequiredKeys <= m.Keys
    requires w.consumer.rows == [] && w.consumer.lastFlush == clock
    ensures var r := Run(DefaultConfig, w, Burst(150, m, clock));
            |r.table| == |w.table| + 100 && |r.consumer.rows| == 50
  {
    BurstWritesWholeBatches(150, m, w, clock);
  }
}

=== FILE: ranking.dfy ===
/**
 * The "top countries" table: distinct viewers per country, sorted by that
 * count in descending order and cut to the first ten
 * (`groupby("country")["viewer_id"].nunique().sort_values(ascending=False).head(10)`).
 *
 * pandas does not fix the order of countries with equal counts; the model
 * picks one order (ties keep the order of first appearance) and its contract
 * states only what every admissible order satisfies.
 */
module Ranking {
  import opened Events

  /** Number of rows the table keeps. */
  const TopK: nat := 10

  datatype CountryCount = CountryCount(country: string, viewers: nat)

  /** `nunique()` of the viewers seen in country `c`. */
  function CountryViewers(es: seq<Event>, c: string): nat
  {
    |set e | e in es && e.country == c :: e.viewer|
  }

  /** The countries that occur in the frame. */
  function CountriesOf(es: seq<Event>): set<string>
  {
    set e | e in es :: e.country
  }

  /** The countries named in a table. */
  function Names(s: seq<CountryCount>): set<string>
  {
    set x | x in s :: x.country
  }

  /** The country column, in frame order. */
  function CountryColumn(es: seq<Event>): (r: seq<string>)
    ensures forall c :: c in r <==> c in CountriesOf(es)
  {
    if |es| == 0 then []
    else
      assert forall e :: e in es <==> e == es[0] || e in es[1..];
      [es[0].country] + CountryColumn(es[1..])
  }

  predicate SortedDesc(s: seq<CountryCount>)
  {
    forall i, j :: 0 <= i < j < |s| ==> s[i].viewers >= s[j].viewers
  }

  predicate DistinctCountries(s: seq<CountryCount>)
  {
    forall i, j :: 0 <= i < j < |s| ==> s[i].country != s[j].country
  }

  /** Inserts `x` after every entry with at least as many viewers. */
  function Insert(s: seq<CountryCount>, x: CountryCount): (r: seq<CountryCount>)
    ensures |r| == |s| + 1
    ensures forall y :: y in r <==> y == x || y in s
  {
    if |s| == 0 then [x]
    else if s[0].viewers < x.viewers then
      [x] + s
    else
      assert forall y :: y in s <==> y == s[0] || y in s[1..];
      [s[0]] + Insert(s[1..], x)
  }

  /** Inserting into a descending list keeps it descending. */
  lemma {:induction false} InsertSorted(s: seq<CountryCount>, x: CountryCount)
    requires SortedDesc(s)
    ensures SortedDesc(Insert(s, x))
  {
    if |s| > 0 && s[0].viewers >= x.viewers {
      InsertSorted(s[1..], x);
      var rest := Insert(s[1..], x);
      var r := Insert(s, x);
      assert r == [s[0]] + rest;
      forall i, j | 0 <= i < j < |r|
        ensures r[i].viewers >= r[j].viewers
      {
        if i == 0 {
          assert r[j] in rest;
          assert r[j] == x || r[j] in s[1..];
        } else {
          assert r[i] == rest[i - 1] && r[j] == rest[j - 1];
        }
      }
    }
  }

  /** Inserting a new country into a list of distinct countries keeps them distinct. */
  lemma {:induction false} InsertDistinct(s: seq<CountryCount>, x: CountryCount)
    requires DistinctCountries(s)
    requires forall y :: y in s ==> y.country != x.country
    ensures DistinctCountries(Insert(s, x))
  {
    if |s| > 0 && s[0].viewers >= x.viewers {
      assert forall y :: y in s[1..] ==> y in s;
      InsertDistinct(s[1..], x);
      var rest := Insert(s[1..], x);
      var r := [s[0]] + rest;
      assert Insert(s, x) == r;
      forall i, j | 0 <= i < j < |r|
        ensures r[i].country != r[j].country
      {
        assert r[j] == rest[j - 1];
        if i == 0 {
          assert rest[j - 1] in rest;
        } else {
          assert r[i] == rest[i - 1];
        }
      }
    } else if |s| > 0 {
      var r := [x] + s;
      assert Insert(s, x) == r;
      forall i, j | 0 <= i < j < |r|
        ensures r[i].country != r[j].country
      {
        assert r[j] == s[j - 1];
        if i == 0 {
          assert s[j - 1] in s;
        } else {
          assert r[i] == s[i - 1];
        }
      }
    }
  }

  /** Insertion sort, descending by viewer count. */
  function SortDesc(xs: seq<CountryCount>): (r: seq<CountryCount>)
    requires DistinctCountries(xs)
    ensures SortedDesc(r) && DistinctCountries(r)
    ensures |r| == |xs|
    ensures forall y :: y in r <==> y in xs
  {
    if |xs| == 0 then []
    else
      var init := xs[..|xs| - 1];
      var last := xs[|xs| - 1];
      assert xs == init + [last];
      var sorted := SortDesc(init);
      assert forall y :: y in init ==> y.country != last.country;
      InsertSorted(sorted, last);
      InsertDistinct(sorted, last);
      Insert(sorted, last)
  }

  /** One `(country, distinct viewers)` row per distinct country of `cs`. */
  function CountryRows(es: seq<Event>, cs: seq<string>): (r: seq<CountryCount>)
    requires forall i, j :: 0 <= i < j < |cs| ==> cs[i] != cs[j]
    ensures DistinctCountries(r)
    ensures forall x :: x in r ==> x.viewers == CountryViewers(es, x.country)
    ensures Names(r) == set c | c in cs
  {
    var r := seq(|cs|, i requires 0 <= i < |cs| => CountryCount(cs[i], CountryViewers(es, cs[i])));
    assert forall c :: c in cs ==> c in Names(r) by {
      forall c | c in cs ensures c in Names(r) {
        var i :| 0 <= i < |cs| && cs[i] == c;
        assert r[i] in r;
      }
    }
    r
  }

  /** Every country of the frame with its count, sorted descending. */
  function Ranked(es: seq<Event>): (s: seq<CountryCount>)
    ensures SortedDesc(s) && DistinctCountries(s)
    ensures forall x :: x in s ==> x.viewers == CountryViewers(es, x.country)
    ensures Names(s) == CountriesOf(es)
  {
    var cs := Distinct(CountryColumn(es));
    var rows := CountryRows(es, cs);
    var s := SortDesc(rows);
    assert Names(s) == Names(rows);
    s
  }

  /**
   * Cutting a descending list after `n` rows leaves out no entry larger than
   * one that is kept.
   */
  lemma PrefixKeepsLargest(s: seq<CountryCount>, n: nat, c: string)
    requires SortedDesc(s) && n <= |s|
    requires c in Names(s) && c !in Names(s[..n])
    ensures exists x :: x in s && x.country == c && forall i :: 0 <= i < n ==> x.viewers <= s[i].viewers
  {
    var x :| x in s && x.country == c;
    var j :| 0 <= j < |s| && s[j] == x;
  }

  /**
   * The table: at most ten rows, one per country of the frame, each holding
   * that country's distinct-viewer count, with counts non-increasing.
   */
  function TopCountries(es: seq<Event>): (r: seq<CountryCount>)
    ensures |r| <= TopK
    ensures DistinctCountries(r) && SortedDesc(r)
    ensures forall x :: x in r ==> x.viewers == CountryViewers(es, x.country)
    ensures Names(r) <= CountriesOf(es)
  {
    var s := Ranked(es);
    var n := if |s| < TopK then |s| else TopK;
    PrefixKeepsOrder(s, n);
    s[..n]
  }

  /** A prefix of a sorted list of distinct countries is one too, drawn from the list. */
  lemma PrefixKeepsOrder(s: seq<CountryCount>, n: nat)
    requires SortedDesc(s) && DistinctCountries(s) && n <= |s|
    ensures SortedDesc(s[..n]) && DistinctCountries(s[..n])
    ensures forall x :: x in s[..n] ==> x in s
  {
    var t := s[..n];
    assert forall i :: 0 <= i < |t| ==> t[i] == s[i];
  }

  /** No country left out of the table has more viewers than one kept. */
  lemma TopCountriesKeepLargest(es: seq<Event>, c: string)
    requires c in CountriesOf(es) && c !in Names(TopCountries(es))
    ensures forall i :: 0 <= i < |TopCountries(es)| ==> CountryViewers(es, c) <= TopCountries(es)[i].viewers
  {
    var s := Ranked(es);
    var n := if |s| < TopK then |s| else TopK;
    assert TopCountries(es) == s[..n];
    PrefixKeepsLargest(s, n, c);
  }

  /**
   * A table shorter than ten rows lists every country of the frame, and the
   * table is empty exactly when the frame is.
   */
  lemma TopCountriesComplete(es: seq<Event>)
    ensures |TopCountries(es)| < TopK ==> Names(TopCountries(es)) == CountriesOf(es)
    ensures |es| == 0 <==> |TopCountries(es)| == 0
  {
    var s := Ranked(es);
    if |es| > 0 {
      assert es[0].country in CountriesOf(es);
      assert es[0].country in Names(s);
    }
  }
}

=== FILE: survival.dfy ===
/**
 * Session reconstruction (`dwell_label`) and the data-sufficiency guard of the
 * Kaplan–Meier fit (`fit_km`), from `src/models/survival.py`.
 *
 * Every viewer collapses into one interval: the earliest `view_start` and the
 * latest `view_end`, or `now` when no end was seen. Viewers without a start
 * and intervals with negative dwell are dropped (not clamped). The churn flag
 * is computed as `end != now`, so a real `view_end` stamped exactly at `now`
 * is reported as censored.
 */
module Survival {
  import opened Wrappers
  import opened Events

  /** One row of the `dwell_label` frame, keyed by its viewer id. */
  datatype Session = Session(start: int, end: int, dwellSec: real, churned: bool)

  /** The row for viewer `v`, or `None` when the row is dropped. */
  function SessionOf(es: seq<Event>, v: string, now: int): (r: Option<Session>)
    ensures r.None? <==> FirstStart(es, v).None? || EndOrNow(es, v, now) < FirstStart(es, v).value
    ensures r.Some? ==> r.value.start == FirstStart(es, v).value && r.value.end == EndOrNow(es, v, now)
    ensures r.Some? ==> r.value.start <= r.value.end && r.value.dwellSec >= 0.0
    ensures r.Some? ==> r.value.dwellSec == Seconds(r.value.end - r.value.start)
    ensures r.Some? ==> (r.value.churned <==> r.value.end != now)
  {
    match FirstStart(es, v)
    case None => None
    case Some(start) =>
      var end := EndOrNow(es, v, now);
      if end - start < 0 then None
      else Some(Session(start, end, Seconds(end - start), end != now))
  }

  /** `dwell_label(events, now)`: one session per viewer that has a defined one. */
  function DwellLabel(es: seq<Event>, now: int): (r: map<string, Session>)
    ensures forall v :: v in r <==> SessionOf(es, v, now).Some?
    ensures forall v :: v in r ==> r[v] == SessionOf(es, v, now).value
  {
    forall v | SessionOf(es, v, now).Some? ensures v in Viewers(es) {
      FirstStartIsEarliest(es, v);
    }
    map v | v in Viewers(es) && SessionOf(es, v, now).Some? :: SessionOf(es, v, now).value
  }

  /** Empty input gives an empty frame. */
  lemma EmptyInputEmptyLabel(now: int)
    ensures DwellLabel([], now) == map[]
  {
    assert forall v :: v !in DwellLabel([], now);
  }

  /**
   * A viewer is present exactly when it has a `view_start` with a defined
   * timestamp and its interval is not negative; its start is then the
   * earliest such timestamp.
   */
  lemma StartIsEarliestViewStart(es: seq<Event>, now: int, v: string)
    requires v in DwellLabel(es, now)
    ensures exists e :: e in es && e.viewer == v && e.kind == ViewStart && e.ts == Some(DwellLabel(es, now)[v].start)
    ensures forall e :: e in es && e.viewer == v && e.kind == ViewStart && e.ts.Some? ==> DwellLabel(es, now)[v].start <= e.ts.value
  {
    FirstStartIsEarliest(es, v);
  }

  /** A viewer with no timed `view_start` never appears. */
  lemma NoStartNoRow(es: seq<Event>, now: int, v: string)
    requires forall e :: e in es && e.viewer == v && e.kind == ViewStart ==> e.ts.None?
    ensures v !in DwellLabel(es, now)
  {
    FirstStartIsEarliest(es, v);
  }

  /** The end is the latest `view_end` when there is one, otherwise `now`. */
  lemma EndIsLatestViewEndOrNow(es: seq<Event>, now: int, v: string)
    requires v in DwellLabel(es, now)
    ensures (forall e :: e in es && e.viewer == v && e.kind == ViewEnd ==> e.ts.None?) ==> DwellLabel(es, now)[v].end == now
    ensures (exists e :: e in es && e.viewer == v && e.kind == ViewEnd && e.ts.Some?) ==>
      (exists e :: e in es && e.viewer == v && e.kind == ViewEnd && e.ts == Some(DwellLabel(es, now)[v].end)) &&
      forall e :: e in es && e.viewer == v && e.kind == ViewEnd && e.ts.Some? ==> e.ts.value <= DwellLabel(es, now)[v].end
  {
    LastEndIsLatest(es, v);
  }

  /** Negative dwell is dropped, never clamped: every row has `dwell = end - start >= 0`. */
  lemma DwellIsNonNegativeDifference(es: seq<Event>, now: int, v: string)
    requires v in DwellLabel(es, now)
    ensures DwellLabel(es, now)[v].dwellSec == Seconds(DwellLabel(es, now)[v].end - DwellLabel(es, now)[v].start)
    ensures DwellLabel(es, now)[v].dwellSec >= 0.0
  {
  }

  /** A viewer whose start is later than its latest end is dropped. */
  lemma NegativeDwellDropped(es: seq<Event>, now: int, v: string)
    requires FirstStart(es, v).Some? && LastEnd(es, v).Some?
    requires LastEnd(es, v).value < FirstStart(es, v).value
    ensures v !in DwellLabel(es, now)
  {
  }

  /**
   * `churned` is `end != now`: it is set only when a `view_end` was seen, but
   * a viewer with no `view_end` and one whose latest `view_end` equals `now`
   * both get 0.
   */
  lemma ChurnFlag(es: seq<Event>, now: int, v: string)
    requires v in DwellLabel(es, now)
    ensures DwellLabel(es, now)[v].churned <==> DwellLabel(es, now)[v].end != now
    ensures DwellLabel(es, now)[v].churned ==> exists e :: e in es && e.viewer == v && e.kind == ViewEnd && e.ts.Some?
    ensures LastEnd(es, v) == Some(now) ==> !DwellLabel(es, now)[v].churned
  {
    LastEndIsLatest(es, v);
  }

  /**
   * The frame depends only on which events occur: reordering the input, or
   * delivering an event more than once, changes nothing.
   */
  lemma {:induction false} LabelDependsOnlyOnEventSet(es1: seq<Event>, es2: seq<Event>, now: int)
    requires forall e :: e in es1 <==> e in es2
    ensures DwellLabel(es1, now) == DwellLabel(es2, now)
  {
    forall v ensures SessionOf(es1, v, now) == SessionOf(es2, v, now) {
      ReductionsDependOnlyOnEventSet(es1, es2, v);
    }
    assert Viewers(es1) == Viewers(es2);
  }

  /** In particular the frame is invariant under permutation of the events. */
  lemma LabelPermutationInvariant(es1: seq<Event>, es2: seq<Event>, now: int)
    requires multiset(es1) == multiset(es2)
    ensures DwellLabel(es1, now) == DwellLabel(es2, now)
  {
    assert forall e :: e in es1 <==> e in multiset(es1);
    assert forall e :: e in es2 <==> e in multiset(es2);
    LabelDependsOnlyOnEventSet(es1, es2, now);
  }

  /** Heartbeats never affect the frame. */
  lemma HeartbeatsIgnored(es: seq<Event>, hb: Event, now: int)
    requires hb.kind == Heartbeat
    ensures DwellLabel(es + [hb], now) == DwellLabel(es, now)
  {
    forall v ensures SessionOf(es + [hb], v, now) == SessionOf(es, v, now) {
      TsOfAppendOther(es, hb, v, ViewStart);
      TsOfAppendOther(es, hb, v, ViewEnd);
      assert FirstStart(es + [hb], v) == FirstStart(es, v);
      assert EndOrNow(es + [hb], v, now) == EndOrNow(es, v, now);
    }
  }

  lemma {:induction false} TsOfAppendOther(es: seq<Event>, e: Event, v: string, k: Kind)
    requires e.kind != k
    ensures TsOf(es + [e], v, k) == TsOf(es, v, k)
  {
    if |es| > 0 {
      assert (es + [e])[1..] == es[1..] + [e];
      TsOfAppendOther(es[1..], e, v, k);
    }
  }

  // ---------------------------------------------------------------------------
  // fit_km's cleaning and data-sufficiency guard.

  /**
   * One row handed to `fit_km`: `None` stands for NaN and for ±inf, which
   * the function first replaces by NaN.
   */
  datatype KmRow = KmRow(dwell: Option<real>, churned: Option<int>)

  /** The row a reconstructed session contributes. */
  function KmRowOf(s: Session): KmRow
  {
    KmRow(Some(s.dwellSec), Some(if s.churned then 1 else 0))
  }

  /** Survives `dropna(subset=["dwell_sec","churned"])` and `dwell_sec >= 0`. */
  predicate IsClean(r: KmRow)
  {
    r.dwell.Some? && r.churned.Some? && r.dwell.value >= 0.0
  }

  /**
   * The rows kept by the cleaning steps, in order: every clean row as often
   * as it occurs, and no other row.
   */
  function CleanRows(rows: seq<KmRow>): (r: seq<KmRow>)
    ensures |r| <= |rows|
    ensures forall x :: x in r <==> x in rows && IsClean(x)
    ensures forall x :: multiset(r)[x] == if IsClean(x) then multiset(rows)[x] else 0
  {
    if |rows| == 0 then []
    else
      var rest := CleanRows(rows[1..]);
      assert forall x :: x in rows <==> x == rows[0] || x in rows[1..];
      assert rows == [rows[0]] + rows[1..];
      assert multiset(rows) == multiset{rows[0]} + multiset(rows[1..]);
      if IsClean(rows[0]) then [rows[0]] + rest else rest
  }

  /** Total dwell of a list of rows whose dwell is defined. */
  function DwellSum(rows: seq<KmRow>): real
  {
    if |rows| == 0 then 0.0
    else (if rows[0].dwell.Some? then rows[0].dwell.value else 0.0) + DwellSum(rows[1..])
  }

  /** Fewer rows than this and `fit_km` declines to fit. */
  const MinKmRows: int := 3

  /**
   * `fit_km`'s guard: `None` is the `(None, None)` answer; otherwise the
   * cleaned rows that would be handed to the estimator.
   */
  function FitKm(rows: seq<KmRow>): (r: Option<seq<KmRow>>)
    ensures |rows| == 0 ==> r.None?
    ensures r.None? <==> |CleanRows(rows)| < MinKmRows || DwellSum(CleanRows(rows)) <= 0.0
    ensures r.Some? ==> r.value == CleanRows(rows)
    ensures r.Some? ==> |r.value| >= MinKmRows && DwellSum(r.value) > 0.0
    ensures r.Some? ==> forall x :: x in r.value ==> x in rows && IsClean(x)
  {
    if |rows| == 0 then None
    else
      var df := CleanRows(rows);
      if |df| < MinKmRows || DwellSum(df) <= 0.0 then None else Some(df)
  }

  /** Cleaning keeps a list of clean rows as it is. */
  lemma {:induction false} CleanRowsKeepsClean(rows: seq<KmRow>)
    requires forall i :: 0 <= i < |rows| ==> IsClean(rows[i])
    ensures CleanRows(rows) == rows
  {
    if |rows| > 0 {
      CleanRowsKeepsClean(rows[1..]);
      assert rows == [rows[0]] + rows[1..];
    }
  }

  /** The rows the sessions of `DwellLabel(es, now)` contribute. */
  function SessionRows(es: seq<Event>, now: int): set<KmRow>
  {
    set v | v in DwellLabel(es, now) :: KmRowOf(DwellLabel(es, now)[v])
  }

  /**
   * Rows built from reconstructed sessions all survive the cleaning, so on
   * them the guard looks only at the row count and the dwell sum.
   */
  lemma SessionGuard(rows: seq<KmRow>, es: seq<Event>, now: int)
    requires forall i :: 0 <= i < |rows| ==> rows[i] in SessionRows(es, now)
    ensures CleanRows(rows) == rows
    ensures FitKm(rows).None? <==> |rows| < MinKmRows || DwellSum(rows) <= 0.0
  {
    CleanRowsKeepsClean(rows);
  }

  // ---------------------------------------------------------------------------
  // Worked scenarios.

  /** A start at 0 s, a heartbeat at 5 s and an end at 12 s, queried at `now` = 20 s. */
  lemma ObservedEnd()
    ensures var es := [Event(Some(0), "v1", "x", ViewStart, "US"),
                       Event(Some(5 * Second), "v1", "x", Heartbeat, "US"),
                       Event(Some(12 * Second), "v1", "x", ViewEnd, "US")];
            DwellLabel(es, 20 * Second) == map["v1" := Session(0, 12 * Second, 12.0, true)]
  {
    var es := [Event(Some(0), "v1", "x", ViewStart, "US"),
               Event(Some(5 * Second), "v1", "x", Heartbeat, "US"),
               Event(Some(12 * Second), "v1", "x", ViewEnd, "US")];
    assert TsOf(es[2..], "v1", ViewEnd) == [12 * Second];
    assert TsOf(es[1..], "v1", ViewEnd) == [12 * Second];
    assert TsOf(es, "v1", ViewEnd) == [12 * Second];
    assert TsOf(es[2..], "v1", ViewStart) == [];
    assert TsOf(es[1..], "v1", ViewStart) == [];
    assert TsOf(es, "v1", ViewStart) == [0];
    assert Viewers(es) == {"v1"} by {
      assert es[0] in es;
    }
  }

  /** The same events queried at `now` = 12 s: the end equals `now`, so the row is censored. */
  lemma EndAtNowIsCensored()
    ensures var es := [Event(Some(0), "v1", "x", ViewStart, "US"),
                       Event(Some(5 * Second), "v1", "x", Heartbeat, "US"),
                       Event(Some(12 * Second), "v1", "x", ViewEnd, "US")];
            DwellLabel(es, 12 * Second) == map["v1" := Session(0, 12 * Second, 12.0, false)]
  {
    var es := [Event(Some(0), "v1", "x", ViewStart, "US"),
               Event(Some(5 * Second), "v1", "x", Heartbeat, "US"),
               Event(Some(12 * Second), "v1", "x", ViewEnd, "US")];
    assert TsOf(es[2..], "v1", ViewEnd) == [12 * Second];
    assert TsOf(es[1..], "v1", ViewEnd) == [12 * Second];
    assert TsOf(es, "v1", ViewEnd) == [12 * Second];
    assert TsOf(es[2..], "v1", ViewStart) == [];
    assert TsOf(es[1..], "v1", ViewStart) == [];
    assert TsOf(es, "v1", ViewStart) == [0];
    assert Viewers(es) == {"v1"} by {
      assert es[0] in es;
    }
  }

  /** A lone start at 0 s queried at 30 s: dwell 30 s, censored. */
  lemma StillWatching()
    ensures DwellLabel([Event(Some(0), "v1", "x", ViewStart, "US")], 30 * Second)
            == map["v1" := Session(0, 30 * Second, 30.0, false)]
  {
    var es := [Event(Some(0), "v1", "x", ViewStart, "US")];
    assert TsOf(es, "v1", ViewStart) == [0];
    assert TsOf(es, "v1", ViewEnd) == [];
    assert Viewers(es) == {"v1"} by {
      assert es[0] in es;
    }
  }
}

=== FILE: timeseries.dfy ===
/**
 * Starts per minute and the forecast pre-processing, from
 * `src/models/timeseries.py`. Only the deterministic part is modelled: the
 * forecasting library receives the prepared series and is not part of this
 * model.
 */
module Timeseries {
  import opened Wrappers
  import opened Events
  import opened Buckets

  /** A history shorter than this many distinct minutes is not forecast. */
  const MinHistory: nat := 10

  /** Timestamps of the `view_start` events whose timestamp parsed. */
  function StartStamps(es: seq<Event>): (r: seq<int>)
    ensures |r| <= |es|
  {
    if |es| == 0 then []
    else if es[0].kind == ViewStart && es[0].ts.Some? then [es[0].ts.value] + StartStamps(es[1..])
    else StartStamps(es[1..])
  }

  /** Number of `view_start` events with a parsed timestamp. */
  function TimedStarts(es: seq<Event>): nat
  {
    if |es| == 0 then 0
    else (if es[0].kind == ViewStart && es[0].ts.Some? then 1 else 0) + TimedStarts(es[1..])
  }

  lemma {:induction false} StartStampsCount(es: seq<Event>)
    ensures |StartStamps(es)| == TimedStarts(es)
  {
    if |es| > 0 {
      StartStampsCount(es[1..]);
    }
  }

  /**
   * `starts_per_minute`: one bucket per minute that saw a timed start,
   * ascending, each at least one, summing to the number of timed starts;
   * empty input gives an empty series.
   */
  function StartsPerMinute(es: seq<Event>): (r: seq<Bucket>)
    ensures |es| == 0 ==> r == []
    ensures Ascending(r)
    ensures forall x :: x in r ==> x.total >= 1
    ensures KeysOf(r) == set t | t in StartStamps(es) :: FloorTo(t, Minute)
    ensures forall i :: 0 <= i < |r| ==> r[i].key % Minute == 0
    ensures forall i :: 0 <= i < |r| ==> r[i].total == Occurrences(StartStamps(es), Minute, r[i].key)
    ensures Sum(r) == TimedStarts(es)
  {
    StartStampsCount(es);
    var r := CountBy(StartStamps(es), Minute);
    assert forall i :: 0 <= i < |r| ==> r[i].key in KeysOf(r);
    r
  }

  /** Heartbeats, ends and starts whose timestamp did not parse are never counted. */
  lemma {:induction false} OnlyTimedStartsCount(es: seq<Event>, e: Event)
    requires e.kind != ViewStart || e.ts.None?
    ensures StartsPerMinute(es + [e]) == StartsPerMinute(es)
  {
    StartStampsAppend(es, e);
  }

  lemma {:induction false} StartStampsAppend(es: seq<Event>, e: Event)
    requires e.kind != ViewStart || e.ts.None?
    ensures StartStamps(es + [e]) == StartStamps(es)
  {
    if |es| > 0 {
      assert (es + [e])[1..] == es[1..] + [e];
      StartStampsAppend(es[1..], e);
    }
  }

  // ---------------------------------------------------------------------------
  // prophet_forecast's pre-processing.

  /** One input row: `ds` is NaT-able, `y` is NaN-able. */
  datatype SpmRow = SpmRow(ds: Option<int>, y: Option<int>)

  /** What reaches the forecasting library, or the empty answer. */
  datatype ForecastInput = NotEnoughHistory | Ready(history: seq<Bucket>)

  /** `dropna(subset=["ds","y"])`. */
  function ValidObs(spm: seq<SpmRow>): (r: seq<Obs>)
    ensures |r| <= |spm|
  {
    if |spm| == 0 then []
    else if spm[0].ds.Some? && spm[0].y.Some? then [Obs(spm[0].ds.value, spm[0].y.value)] + ValidObs(spm[1..])
    else ValidObs(spm[1..])
  }

  /**
   * `prophet_forecast` up to the fit: rows with a missing `ds` or `y` are
   * dropped, `y` is summed per `ds` and sorted; fewer than ten distinct
   * minutes, or empty input, gives the empty answer. A ready history has
   * strictly increasing `ds`, keeps every valid `ds`, and keeps the total of
   * `y` per `ds` and overall.
   */
  function PrepareForecast(spm: seq<SpmRow>): (r: ForecastInput)
    ensures |spm| == 0 ==> r.NotEnoughHistory?
    ensures r.NotEnoughHistory? <==> |ObsKeys(ValidObs(spm))| < MinHistory
    ensures r.Ready? ==> Ascending(r.history) && |r.history| >= MinHistory
    ensures r.Ready? ==> KeysOf(r.history) == ObsKeys(ValidObs(spm))
    ensures r.Ready? ==> Sum(r.history) == TotalWeight(ValidObs(spm))
    ensures r.Ready? ==> forall k :: TotalAt(r.history, k) == WeightAt(ValidObs(spm), k)
  {
    if |spm| == 0 then
      assert ObsKeys(ValidObs(spm)) == {};
      NotEnoughHistory
    else
      var grouped := GroupSum(ValidObs(spm));
      GroupSumKeys(ValidObs(spm));
      GroupSumTotals(ValidObs(spm));
      AscendingKeysCount(grouped);
      if |grouped| < MinHistory then NotEnoughHistory else Ready(grouped)
  }

  /** A bucket list read back as forecast input rows. */
  function AsSpm(b: seq<Bucket>): (r: seq<SpmRow>)
    ensures |r| == |b|
  {
    if |b| == 0 then [] else [SpmRow(Some(b[0].key), Some(b[0].total))] + AsSpm(b[1..])
  }

  lemma {:induction false} ValidObsOfAsSpm(b: seq<Bucket>)
    ensures ValidObs(AsSpm(b)) == AsObs(b)
  {
    if |b| > 0 {
      ValidObsOfAsSpm(b[1..]);
      assert AsSpm(b)[1..] == AsSpm(b[1..]);
      assert AsObs(b)[1..] == AsObs(b[1..]);
      assert AsObs(b) == [AsObs(b)[0]] + AsObs(b)[1..];
    }
  }

  /**
   * Feeding `starts_per_minute` into the forecast: the series already has
   * one row per minute, so it reaches the fit unchanged once it spans ten
   * minutes.
   */
  lemma StartsPerMinuteForecast(es: seq<Event>)
    ensures var spm := StartsPerMinute(es);
            PrepareForecast(AsSpm(spm)) == if |spm| < MinHistory then NotEnoughHistory else Ready(spm)
  {
    var spm := StartsPerMinute(es);
    ValidObsOfAsSpm(spm);
    GroupSumOfAscending(spm);
    AscendingKeysCount(spm);
    GroupSumKeys(AsObs(spm));
  }
}

=== FILE: window.dfy ===
/**
 * The live aggregates the dashboards and the API compute inline over a
 * fetched frame and a reference instant `now` (`app_pg.py`, `app.py`,
 * `src/api.py`): active viewers, events per second, average dwell,
 * per-second event buckets, the rolling-concurrency sweep.
 *
 * Every window is a lower bound only, `ts >= now - width`; the concurrency
 * sweep in particular has no upper bound `ts <= t`.
 */
module Window {
  import opened Wrappers
  import opened Events
  import opened Buckets
  import Survival

  /** Trailing window of the active-viewer count. */
  const ActiveWindow: int := 60 * Second
  /** Trailing window of the event rate. */
  const RateWindow: int := 10 * Second
  /** Trailing window of the dashboards' average dwell. */
  const DwellWindow: int := 30 * Minute
  /** Trailing window of the per-second event chart. */
  const BucketWindow: int := 5 * Minute
  /** Trailing window of the concurrency chart and the country table. */
  const ConcurrencyWindow: int := 15 * Minute
  /** How far back each concurrency sample looks. */
  const Horizon: int := 60 * Second

  /** `df[df["ts"] >= lo]`: the events at or after `lo`, in frame order. */
  function Since(es: seq<Event>, lo: int): (r: seq<Event>)
    ensures |r| <= |es|
    ensures forall e :: e in r <==> e in es && AtOrAfter(e, lo)
  {
    if |es| == 0 then []
    else
      var rest := Since(es[1..], lo);
      assert forall e :: e in es <==> e == es[0] || e in es[1..];
      if AtOrAfter(es[0], lo) then [es[0]] + rest else rest
  }

  /** Distinct viewers with an event at or after `lo`. */
  function ViewersSince(es: seq<Event>, lo: int): (r: set<string>)
    ensures r <= Viewers(es)
  {
    set e | e in es && AtOrAfter(e, lo) :: e.viewer
  }

  /** Filtering first and then collecting viewers is the same as collecting them in the window. */
  lemma ViewersOfSince(es: seq<Event>, lo: int)
    ensures Viewers(Since(es, lo)) == ViewersSince(es, lo)
  {
  }

  // ---------------------------------------------------------------------------
  // KPIs.

  /**
   * `df[df["ts"] >= now - 60s]["viewer_id"].nunique()`: at most the distinct
   * viewers of the whole frame, and zero exactly when no event is in the window.
   */
  function ActiveViewers(es: seq<Event>, now: int): (n: nat)
    ensures n <= |Viewers(es)|
    ensures n == 0 <==> forall e :: e in es ==> !AtOrAfter(e, now - ActiveWindow)
  {
    var vs := ViewersSince(es, now - ActiveWindow);
    assert (exists e :: e in es && AtOrAfter(e, now - ActiveWindow)) ==> vs != {} by {
      if e :| e in es && AtOrAfter(e, now - ActiveWindow) {
        assert e.viewer in vs;
      }
    }
    SubsetCard(vs, Viewers(es));
    |vs|
  }

  /** The count is a function of the trailing 60-second subset alone. */
  lemma ActiveDependsOnlyOnWindow(es: seq<Event>, now: int)
    ensures ActiveViewers(es, now) == |Viewers(Since(es, now - ActiveWindow))|
    ensures ActiveViewers(Since(es, now - ActiveWindow), now) == ActiveViewers(es, now)
  {
    var lo := now - ActiveWindow;
    var w := Since(es, lo);
    ViewersOfSince(es, lo);
    ViewersOfSince(w, lo);
    SinceIdempotent(es, lo);
    assert ActiveViewers(es, now) == |ViewersSince(es, lo)|;
    assert ActiveViewers(w, now) == |ViewersSince(w, lo)|;
  }

  lemma {:induction false} SinceIdempotent(es: seq<Event>, lo: int)
    ensures Since(Since(es, lo), lo) == Since(es, lo)
  {
    if |es| > 0 {
      SinceIdempotent(es[1..], lo);
    }
  }

  /** Filtering with a later bound after an earlier one is filtering with the later bound. */
  lemma {:induction false} SinceNested(es: seq<Event>, lo: int, hi: int)
    requires lo <= hi
    ensures Since(Since(es, lo), hi) == Since(es, hi)
  {
    if |es| > 0 {
      SinceNested(es[1..], lo, hi);
    }
  }

  /** A later bound keeps no more events than an earlier one. */
  lemma {:induction false} SinceShrinks(es: seq<Event>, lo: int, hi: int)
    requires lo <= hi
    ensures |Since(es, hi)| <= |Since(es, lo)|
  {
    if |es| > 0 {
      SinceShrinks(es[1..], lo, hi);
    }
  }

  /** `len(df[df["ts"] >= now - 10s]) / 10.0`. */
  function EventsPerSecond(es: seq<Event>, now: int): (r: real)
    ensures r >= 0.0
    ensures r * 10.0 == |Since(es, now - RateWindow)| as real
    ensures r <= |es| as real / 10.0
  {
    |Since(es, now - RateWindow)| as real / 10.0
  }

  /** Events outside the rate window never change the rate. */
  lemma {:induction false} RateIgnoresOldEvents(es: seq<Event>, stale: Event, now: int)
    requires !AtOrAfter(stale, now - RateWindow)
    ensures EventsPerSecond(es + [stale], now) == EventsPerSecond(es, now)
  {
    SinceAppend(es, stale, now - RateWindow);
  }

  lemma {:induction false} SinceAppend(es: seq<Event>, e: Event, lo: int)
    ensures Since(es + [e], lo) == Since(es, lo) + (if AtOrAfter(e, lo) then [e] else [])
  {
    if |es| > 0 {
      assert (es + [e])[1..] == es[1..] + [e];
      SinceAppend(es[1..], e, lo);
    }
  }

  // ---------------------------------------------------------------------------
  // Inline average dwell: negative dwell is clamped, a missing start is NaN.

  /** Viewers with at least one `view_start` or `view_end`: the rows of `aligned`. */
  function EndpointViewers(es: seq<Event>): (r: seq<string>)
    ensures forall v :: v in r <==> exists e :: e in es && e.viewer == v && e.kind != Heartbeat
  {
    if |es| == 0 then []
    else
      var rest := EndpointViewers(es[1..]);
      assert forall e :: e in es <==> e == es[0] || e in es[1..];
      if es[0].kind != Heartbeat then [es[0].viewer] + rest else rest
  }

  function AlignedViewers(es: seq<Event>): seq<string>
  {
    Distinct(EndpointViewers(es))
  }

  /**
   * One `aligned["dwell_sec"]` value: NaN (`None`) when the viewer has no
   * timed start, else the seconds from the earliest start to the latest end
   * (or `now`), clipped below at zero.
   */
  function InlineDwell(es: seq<Event>, v: string, now: int): (r: Option<real>)
    ensures r.None? <==> FirstStart(es, v).None?
    ensures r.Some? ==> r.value >= 0.0
  {
    match FirstStart(es, v)
    case None => None
    case Some(start) =>
      var d := EndOrNow(es, v, now) - start;
      Some(if d < 0 then 0.0 else Seconds(d))
  }

  /**
   * The inline dwell agrees with `dwell_label` where that keeps the viewer,
   * and is exactly zero where `dwell_label` drops a negative interval.
   */
  lemma InlineDwellVersusLabel(es: seq<Event>, v: string, now: int)
    requires FirstStart(es, v).Some?
    ensures v in Survival.DwellLabel(es, now) ==> InlineDwell(es, v, now) == Some(Survival.DwellLabel(es, now)[v].dwellSec)
    ensures v !in Survival.DwellLabel(es, now) ==> InlineDwell(es, v, now) == Some(0.0)
  {
  }

  function Dwells(es: seq<Event>, vs: seq<string>, now: int): (r: seq<Option<real>>)
    ensures |r| == |vs|
    ensures forall i :: 0 <= i < |vs| ==> r[i] == InlineDwell(es, vs[i], now)
  {
    if |vs| == 0 then [] else [InlineDwell(es, vs[0], now)] + Dwells(es, vs[1..], now)
  }

  function DefinedCount(xs: seq<Option<real>>): nat
  {
    if |xs| == 0 then 0 else (if xs[0].Some? then 1 else 0) + DefinedCount(xs[1..])
  }

  function DefinedSum(xs: seq<Option<real>>): real
  {
    if |xs| == 0 then 0.0 else (if xs[0].Some? then xs[0].value else 0.0) + DefinedSum(xs[1..])
  }

  lemma {:induction false} DefinedCountZero(xs: seq<Option<real>>)
    ensures DefinedCount(xs) == 0 <==> forall i :: 0 <= i < |xs| ==> xs[i].None?
  {
    if |xs| > 0 {
      DefinedCountZero(xs[1..]);
      assert forall i :: 0 < i < |xs| ==> xs[i] == xs[1..][i - 1];
    }
  }

  /** pandas' `Series.mean()`: NaN values are skipped; NaN when none is left. */
  function MeanDefined(xs: seq<Option<real>>): (r: Option<real>)
    ensures r.None? <==> forall i :: 0 <= i < |xs| ==> xs[i].None?
  {
    DefinedCountZero(xs);
    if DefinedCount(xs) == 0 then None else Some(DefinedSum(xs) / DefinedCount(xs) as real)
  }

  lemma {:induction false} DefinedSumBounds(xs: seq<Option<real>>, lo: real, hi: real)
    requires forall i :: 0 <= i < |xs| && xs[i].Some? ==> lo <= xs[i].value <= hi
    ensures lo * (DefinedCount(xs) as real) <= DefinedSum(xs)
    ensures DefinedSum(xs) <= hi * (DefinedCount(xs) as real)
  {
    if |xs| > 0 {
      assert forall i :: 0 <= i < |xs[1..]| ==> xs[1..][i] == xs[i + 1];
      DefinedSumBounds(xs[1..], lo, hi);
      var n := DefinedCount(xs[1..]) as real;
      var s := DefinedSum(xs[1..]);
      if xs[0].Some? {
        assert DefinedCount(xs) as real == n + 1.0;
        assert DefinedSum(xs) == xs[0].value + s;
        BoundsStep(lo, hi, n, s, xs[0].value);
      } else {
        assert DefinedCount(xs) as real == n;
        assert DefinedSum(xs) == s;
      }
    }
  }

  /** One more value within the bounds keeps a sum within count-scaled bounds. */
  lemma BoundsStep(lo: real, hi: real, n: real, s: real, x: real)
    requires lo * n <= s <= hi * n && lo <= x <= hi
    ensures lo * (n + 1.0) <= s + x <= hi * (n + 1.0)
  {
    assert lo * (n + 1.0) == lo * n + lo;
    assert hi * (n + 1.0) == hi * n + hi;
  }

  lemma NonNegFactor(a: real, n: real)
    requires n > 0.0 && a * n >= 0.0
    ensures a >= 0.0
  {
  }

  lemma DivBounds(s: real, n: real, lo: real, hi: real)
    requires n > 0.0
    requires lo * n <= s <= hi * n
    ensures lo <= s / n <= hi
  {
    var m := s / n;
    assert (m - lo) * n == s - lo * n;
    NonNegFactor(m - lo, n);
    assert (hi - m) * n == hi * n - s;
    NonNegFactor(hi - m, n);
  }

  /** The mean lies within any bounds that hold for every defined value. */
  lemma MeanWithin(xs: seq<Option<real>>, lo: real, hi: real)
    requires forall i :: 0 <= i < |xs| && xs[i].Some? ==> lo <= xs[i].value <= hi
    ensures MeanDefined(xs).Some? ==> lo <= MeanDefined(xs).value <= hi
  {
    if MeanDefined(xs).Some? {
      DefinedSumBounds(xs, lo, hi);
      DivBounds(DefinedSum(xs), DefinedCount(xs) as real, lo, hi);
    }
  }

  /** The least defined value of `xs`, attained by one of them; `None` when none is defined. */
  function MinDefined(xs: seq<Option<real>>): (m: Option<real>)
    ensures m.None? <==> forall i :: 0 <= i < |xs| ==> xs[i].None?
    ensures m.Some? ==> exists i :: 0 <= i < |xs| && xs[i] == m
    ensures m.Some? ==> forall i :: 0 <= i < |xs| && xs[i].Some? ==> m.value <= xs[i].value
  {
    if |xs| == 0 then None
    else
      var rest := MinDefined(xs[1..]);
      assert forall j :: 0 <= j < |xs| - 1 ==> xs[1..][j] == xs[j + 1];
      assert forall i :: 0 < i < |xs| ==> xs[i] == xs[1..][i - 1];
      if xs[0].Some? && (rest.None? || xs[0].value <= rest.value) then xs[0] else rest
  }

  /** The greatest defined value of `xs`, attained by one of them; `None` when none is defined. */
  function MaxDefined(xs: seq<Option<real>>): (m: Option<real>)
    ensures m.None? <==> forall i :: 0 <= i < |xs| ==> xs[i].None?
    ensures m.Some? ==> exists i :: 0 <= i < |xs| && xs[i] == m
    ensures m.Some? ==> forall i :: 0 <= i < |xs| && xs[i].Some? ==> xs[i].value <= m.value
  {
    if |xs| == 0 then None
    else
      var rest := MaxDefined(xs[1..]);
      assert forall j :: 0 <= j < |xs| - 1 ==> xs[1..][j] == xs[j + 1];
      assert forall i :: 0 < i < |xs| ==> xs[i] == xs[1..][i - 1];
      if xs[0].Some? && (rest.None? || xs[0].value >= rest.value) then xs[0] else rest
  }

  /** A defined mean lies between the least and the greatest defined value. */
  lemma MeanBetweenExtremes(xs: seq<Option<real>>)
    ensures MeanDefined(xs).Some? <==> MinDefined(xs).Some?
    ensures MeanDefined(xs).Some? <==> MaxDefined(xs).Some?
    ensures MeanDefined(xs).Some? ==>
      MinDefined(xs).value <= MeanDefined(xs).value <= MaxDefined(xs).value
  {
    var lo, hi := MinDefined(xs), MaxDefined(xs);
    if lo.Some? && hi.Some? {
      MeanWithin(xs, lo.value, hi.value);
    }
  }

  /**
   * The dashboards' average dwell over the trailing 30 minutes: 0.0 when no
   * viewer has a start or end there, NaN (`None`) when some do but none has a
   * start, otherwise the mean of the clamped dwells, which is never negative.
   */
  function AvgDwell(es: seq<Event>, now: int): (r: Option<real>)
    ensures var aligned := AlignedViewers(Since(es, now - DwellWindow));
            aligned == [] ==> r == Some(0.0)
    ensures var win := Since(es, now - DwellWindow);
            var aligned := AlignedViewers(win);
            r.None? <==> aligned != [] && forall i :: 0 <= i < |aligned| ==> FirstStart(win, aligned[i]).None?
    ensures r.Some? ==> r.value >= 0.0
  {
    var win := Since(es, now - DwellWindow);
    var aligned := AlignedViewers(win);
    if |aligned| == 0 then Some(0.0)
    else
      var ds := Dwells(win, aligned, now);
      MeanBetweenExtremes(ds);
      MeanDefined(ds)
  }

  /**
   * With at least one aligned viewer, the average dwell lies between the
   * shortest and the longest dwell of the window's viewers, so a window
   * whose viewers all stayed equally long averages exactly that dwell.
   */
  lemma AvgDwellBetween(es: seq<Event>, now: int)
    ensures var win := Since(es, now - DwellWindow);
            var ds := Dwells(win, AlignedViewers(win), now);
            AlignedViewers(win) != [] && AvgDwell(es, now).Some? ==>
              MinDefined(ds).Some? && MaxDefined(ds).Some? &&
              MinDefined(ds).value <= AvgDwell(es, now).value <= MaxDefined(ds).value
  {
    var win := Since(es, now - DwellWindow);
    MeanBetweenExtremes(Dwells(win, AlignedViewers(win), now));
  }

  // ---------------------------------------------------------------------------
  // Per-second event counts over the last five minutes.

  /**
   * `five.groupby(ts.dt.floor("s")).count()`: ascending second-floored keys,
   * every bucket non-empty, counts summing to the events in the window.
   */
  function PerSecondBuckets(es: seq<Event>, now: int): (r: seq<Bucket>)
    ensures Ascending(r)
    ensures forall x :: x in r ==> x.total >= 1
    ensures KeysOf(r) == set t | t in Stamps(Since(es, now - BucketWindow)) :: FloorTo(t, Second)
    ensures forall i :: 0 <= i < |r| ==>
      r[i].total == Occurrences(Stamps(Since(es, now - BucketWindow)), Second, r[i].key)
    ensures Sum(r) == |Since(es, now - BucketWindow)|
  {
    var five := Since(es, now - BucketWindow);
    StampsOfWindow(five, now - BucketWindow);
    CountBy(Stamps(five), Second)
  }

  /** Inside a window every event has a timestamp, so none is lost by `Stamps`. */
  lemma {:induction false} StampsOfWindow(es: seq<Event>, lo: int)
    requires forall e :: e in es ==> AtOrAfter(e, lo)
    ensures |Stamps(es)| == |es|
  {
    if |es| > 0 {
      assert es[0] in es;
      assert forall e :: e in es[1..] ==> e in es;
      StampsOfWindow(es[1..], lo);
    }
  }

  // ---------------------------------------------------------------------------
  // The rolling-concurrency sweep.

  datatype Sample = Sample(sec: int, concurrent: nat)

  /**
   * One sample: the distinct viewers with `ts >= t - 60s`. There is no upper
   * bound, so viewers whose events all lie after `t` are counted too.
   */
  function Concurrent(es: seq<Event>, t: int): (n: nat)
    ensures n <= |Viewers(es)|
  {
    SubsetCard(ViewersSince(es, t - Horizon), Viewers(es));
    |ViewersSince(es, t - Horizon)|
  }

  /** A later sample never counts more viewers than an earlier one. */
  lemma ConcurrentAntitone(es: seq<Event>, t1: int, t2: int)
    requires t1 <= t2
    ensures Concurrent(es, t2) <= Concurrent(es, t1)
  {
    SubsetCard(ViewersSince(es, t2 - Horizon), ViewersSince(es, t1 - Horizon));
  }

  /** The sample at `now` is the active-viewer count. */
  lemma ConcurrentAtNowIsActive(es: seq<Event>, now: int)
    ensures Concurrent(es, now) == ActiveViewers(es, now)
  {
  }

  /** Reference definition of a rolling 60-second window: `t - 60s <= ts <= t`. */
  function RollingCount(es: seq<Event>, t: int): nat
  {
    |set e | e in es && AtOrAfter(e, t - Horizon) && e.ts.value <= t :: e.viewer|
  }

  /**
   * The sweep never undercounts the rolling window, and agrees with it at
   * every instant no event lies after.
   */
  lemma SweepVersusRollingWindow(es: seq<Event>, t: int)
    ensures RollingCount(es, t) <= Concurrent(es, t)
    ensures (forall e :: e in es && e.ts.Some? ==> e.ts.value <= t) ==> RollingCount(es, t) == Concurrent(es, t)
  {
    var a := set e | e in es && AtOrAfter(e, t - Horizon) && e.ts.value <= t :: e.viewer;
    SubsetCard(a, ViewersSince(es, t - Horizon));
    if forall e :: e in es && e.ts.Some? ==> e.ts.value <= t {
      assert a == ViewersSince(es, t - Horizon);
    }
  }

  /** A viewer seen only two minutes after `t` is counted at `t` by the sweep but not by a rolling window. */
  lemma SweepCountsLaterViewers()
    ensures var es := [Event(Some(120 * Second), "v1", "x", Heartbeat, "US")];
            Concurrent(es, 0) == 1 && RollingCount(es, 0) == 0
  {
    var es := [Event(Some(120 * Second), "v1", "x", Heartbeat, "US")];
    assert ViewersSince(es, -Horizon) == {"v1"} by {
      assert es[0] in es;
    }
    assert (set e | e in es && AtOrAfter(e, -Horizon) && e.ts.value <= 0 :: e.viewer) == {};
  }

  /** Number of whole seconds from `start` to `end` inclusive (`pd.date_range(..., freq="s")`). */
  function SampleCount(start: int, end: int): nat
  {
    if end < start then 0 else (end - start) / Second + 1
  }

  /**
   * One sample per second from the earliest timestamp floored to the second
   * up to `now` ceiled to the second; empty when the frame has no timestamp.
   */
  function ConcurrencySeries(es: seq<Event>, now: int): (r: seq<Sample>)
    ensures MinOf(Stamps(es)).None? ==> r == []
    ensures MinOf(Stamps(es)).Some? ==>
      |r| == SampleCount(FloorTo(MinOf(Stamps(es)).value, Second), CeilTo(now, Second))
    ensures MinOf(Stamps(es)).Some? ==>
      forall i :: 0 <= i < |r| ==> r[i].sec == FloorTo(MinOf(Stamps(es)).value, Second) + i * Second
    ensures |r| > 0 ==> r[|r| - 1].sec == CeilTo(now, Second)
    ensures forall i :: 0 <= i < |r| ==> r[i].concurrent == Concurrent(es, r[i].sec)
    ensures forall i :: 0 <= i < |r| ==> r[i].concurrent <= |Viewers(es)|
  {
    match MinOf(Stamps(es))
    case None => []
    case Some(first) =>
      var start := FloorTo(first, Second);
      var end := CeilTo(now, Second);
      LastSampleAtEnd(start, end);
      Sweep(es, start, SampleCount(start, end))
  }

  /** Between two whole seconds, the last of the samples falls exactly on the end. */
  lemma LastSampleAtEnd(start: int, end: int)
    requires start % Second == 0 && end % Second == 0
    ensures SampleCount(start, end) > 0 ==> start + (SampleCount(start, end) - 1) * Second == end
  {
    if end >= start {
      DivExact(end - start);
    }
  }

  /** `n` samples one second apart from `start`, each the sweep count at its second. */
  function Sweep(es: seq<Event>, start: int, n: nat): (r: seq<Sample>)
    ensures |r| == n
    ensures forall i :: 0 <= i < n ==> r[i].sec == start + i * Second
    ensures forall i :: 0 <= i < n ==> r[i].concurrent == Concurrent(es, r[i].sec)
  {
    seq(n, i requires 0 <= i < n => Sample(start + i * Second, Concurrent(es, start + i * Second)))
  }

  lemma DivExact(d: int)
    requires d >= 0 && d % Second == 0
    ensures (d / Second) * Second == d
  {
  }

  /** The sweep is non-increasing along the timeline. */
  lemma SeriesNonIncreasing(es: seq<Event>, now: int)
    ensures var r := ConcurrencySeries(es, now);
            forall i, j :: 0 <= i <= j < |r| ==> r[j].concurrent <= r[i].concurrent
  {
    var r := ConcurrencySeries(es, now);
    forall i, j | 0 <= i <= j < |r|
      ensures r[j].concurrent <= r[i].concurrent
    {
      ConcurrentAntitone(es, r[i].sec, r[j].sec);
    }
  }
}

=== FILE: wrappers.dfy ===
/** Optional values: pandas' NaT / NaN and Python's None become `None`. */
module Wrappers {

  datatype Option<+T> = None | Some(value: T) {

    /** Returns the wrapped value, or `default` when there is none (pandas `fillna`). */
    function GetOr(default: T): T
    {
      match this
      case Some(v) => v
      case None => default
    }
  }
}
